=== FILE: README.md ===
# hdl21 core in Dafny

A model of four pieces of the hdl21 hardware-description library and of its
ASAP7 technology adapter, with proofs about them:

- **The base elaborator** (`Elaborator`, `ElaboratorProps`). This is the
  depth-first walk every elaboration pass inherits:
  - it caches modules by identity;
  - it sets the `_elaborated` flag on each instance, array and bundle
    instance it visits;
  - it dispatches each instance target to the per-pass hooks;
  - `flatname` (`FlatName`) builds a collision-free attribute name.
- **The hierarchical protobuf exporter** (`Exporter`, `ExporterProps`,
  with the wire schema in `Proto`). `to_proto` and `ProtoExporter`:
  - export modules memoized by identity;
  - give them qualified names and check those for collisions;
  - list them in dependency order;
  - translate ports, parameters and connections.
- **The primitive library** (`Primitives`): the construction checks on
  `Primitive`, `PrimitiveCall` and `MosParams`, the `Nmos`/`Pmos` wrappers,
  and the library's own primitives.
- **The ASAP7 lowering walker** (`Asap7`): the table of ASAP7 transistor
  external modules, and the walker that rewrites `Mos` primitive instances
  into calls of those modules, caching the calls by parameter value.

## How the model is built

- **Identity.** Python object identity (`id()`) is an explicit `id` field
  on every node the source caches or flags: modules, instances, arrays,
  bundle instances and external modules. Every identity-keyed dictionary is
  a `map` over those ids. Where a property needs ids to be faithful, a
  lemma asks for it with `UniqueIds` over a set of modules closed under
  instantiation (`Closed`): distinct modules, distinct ids.
- **State.** Every mutable walker state is threaded through pure functions
  as a value:
  - the elaborator: its cache, its set of flagged nodes, and a trace of
    visits and hook runs;
  - the exporter: its three dictionaries and its package;
  - the ASAP7 walker: its call cache.
- **Dictionary order.** The insertion order of the exporter's `modules`
  dictionary is an explicit `order` sequence.
- **Errors.** Every `raise` becomes an `Err` of the `Error` datatype.
  `ClassOf` records the Python exception class.
- **Elaborator hooks.** A pass's hooks (`elaborate_module`,
  `elaborate_primitive_call`, `elaborate_external_module`) are a `Hooks`
  value of total functions. The base pass is `BaseHooks`, the identity.
- **Parameter values.** They appear as they look after `asdict`: none,
  int, float, str, enum member or other object. Floats are opaque `real`
  values that are never computed on.

Three behaviours of the code that are easy to misread, each modelled as
written:

- A cache hit in `elaborate_module_base` returns the module passed in
  (`hdl21/elab/elaborators/base.py:76-77`), while the cache holds the
  pass's result for it. `Elaborator.ElabModuleBase` does the same, and
  `ElaboratorProps.CacheHitIgnoresHookResult` exhibits a pass where the
  two differ.
- The ASAP7 module names are formatted from the device type's enum
  `str()` (`MosType.NMOSmos_rvt`), not from the short names `n`/`p` of the
  type list.
- Where the source's docstrings and its code differ, the model follows the
  code: `flatname` accepts a name whose length equals `maxlen`, though its
  docstring says "less than".

## Model

| member | source | states |
|---|---|---|
| FlatName.Flatname | hdl21/elab/elaborators/base.py:146-167 | On success: the name is the underscore join plus the fewest trailing underscores that leave the avoid-set, and its length is at most `maxlen` (equal is accepted). Fails with `NoFlatName` exactly when every candidate up to `maxlen` is in the avoid-set. With no avoid-set and a short enough join, the result is the join itself. |
| Elaborator.ElaborateTop | hdl21/elab/elaborators/base.py:49-53 | A top that is not a module is rejected (TypeError). A module top goes to `ElabModuleBase`. |
| Elaborator.Elaborate | hdl21/elab/elaborators/base.py:40-53 | A fresh run rejects a generator top and an anonymous module top. On success, it returns the module hook's result for the top. |
| Elaborator.ElabGeneratorCall | hdl21/elab/elaborators/base.py:55-59 | Always fails with a RuntimeError in a non-generator pass. |
| Elaborator.ElabModuleBase | hdl21/elab/elaborators/base.py:61-96 | A cached id returns the input module with the state unchanged. An uncached anonymous module fails. An uncached named module, on success: every instance, array and bundle declared in it is flagged; the cache maps its id to the hook result; the state only grows. Errors are one of the three traversal errors. |
| Elaborator.ModuleTraceOrdered | hdl21/elab/elaborators/base.py:83-92 | For an uncached module, the trace gains the instance blocks, then the array blocks, then the bundle visits, and only then the module hook. |
| Elaborator.ElabInstances | hdl21/elab/elaborators/base.py:84-85 | On success, each instance is flagged, and the new trace splits into one block per instance, in order, each opened by that instance's visit. Every module an instance targets is elaborated and in the cache, so a parent's hook only runs once its children are defined. |
| Elaborator.ElabArrays | hdl21/elab/elaborators/base.py:86-87 | The same as `ElabInstances`, for instance arrays: each array is flagged, the trace splits into one block per array, and every module an array targets is in the cache. |
| Elaborator.ElabBundles | hdl21/elab/elaborators/base.py:110-113 | Every bundle instance is flagged and its visit logged, in order. The flags added are exactly the bundles' ids, and the cache is untouched. |
| Elaborator.ElabInstance | hdl21/elab/elaborators/base.py:122-130 | The instance is flagged and its visit is the first new event, before its target is elaborated. On success a module target has been elaborated and is in the cache. |
| Elaborator.ElabInstanceArray | hdl21/elab/elaborators/base.py:115-120 | The array is flagged and its visit is the first new event, before its single target is elaborated. On success a module target has been elaborated and is in the cache. |
| Elaborator.ElabInstantiable | hdl21/elab/elaborators/base.py:132-143 | An unset target fails (RuntimeError). A generator call fails (the final TypeError). A module target goes to `ElabModuleBase`: its result is wrapped as a module target, and its error is passed on. A primitive call goes to the primitive hook and an external module call to the external hook, each logged, with nothing else changed. |
| ElaboratorProps.ModuleComplete | hdl21/elab/elaborators/base.py:61-143 | Completeness: a module that is named, and whose instance and array targets all elaborate, elaborates from any state. |
| ElaboratorProps.ModuleSound | hdl21/elab/elaborators/base.py:61-143 | Soundness: with faithful ids and a cache holding only elaboratable modules, a module that elaborates is elaboratable, and the cache stays that way. |
| ElaboratorProps.ElaborateSucceedsIff | hdl21/elab/elaborators/base.py:61-143 | With faithful ids, a fresh elaboration succeeds, for every pass, exactly when the module is named and every instance and array below it targets a named module, a primitive call or an external module call. |
| ElaboratorProps.BaseElaborationIsIdentity | hdl21/elab/elaborators/base.py:98-108 | The base pass returns an elaboratable module unchanged. |
| ElaboratorProps.ElaborationIdempotent | hdl21/elab/elaborators/base.py:76-77 | Elaborating a module again in the same run is a cache hit: the same module comes back and the state is unchanged. |
| ElaboratorProps.SharedIdMasksAnonymousModule | hdl21/elab/elaborators/base.py:76-81 | Without faithful ids, the cache hides an error: an anonymous module that shares an id with an elaborated sibling is skipped, so an unelaboratable top elaborates. |
| ElaboratorProps.CacheHitIgnoresHookResult | hdl21/elab/elaborators/base.py:76-96 | A pass whose hook renames modules returns the renamed module for the first visit and the original module for a cache hit, while the cache holds the renamed one. |
| Exporter.ToProto | hdl21/proto/to_proto.py:20-31 | If any top fails to elaborate, the export fails. On success, the package is named after the domain. |
| Exporter.WrapTops | hdl21/proto/to_proto.py:24-27 | A single top becomes a one-element list. A list is kept as is. |
| Exporter.ElabAll | hdl21/proto/to_proto.py:29 | Succeeds exactly when every top elaborates, giving each top's result in order. |
| Exporter.PackageName | hdl21/proto/to_proto.py:45-46 | The package name is the domain, or "" without one. |
| Exporter.Export | hdl21/proto/to_proto.py:48-58 | A non-list of tops is a TypeError. The package carries the domain's name. |
| Exporter.ExportTops | hdl21/proto/to_proto.py:54-57 | A non-module top fails. On success, every top is a module and is exported, and the state only grows. |
| Exporter.ExportModuleName | hdl21/proto/to_proto.py:60-75 | The name is (package name, defining module + "." + module name). It fails with a collision naming that pair exactly when the pair is already recorded. |
| Exporter.ExportModule | hdl21/proto/to_proto.py:77-115 | A cached id returns the cached result with the state unchanged. Otherwise: interfaces are rejected; the name check runs on the state before the children; on success, the module's ports and signals keep order, name and width, its instances are exactly what `ExportInstances` exports from the same state, every module it instantiates is exported, it is the last module of the package, and its name is recorded. |
| Exporter.ExportInstances | hdl21/proto/to_proto.py:102-109 | An unresolved instance fails. On success, there is one wire instance per instance, in order, each the wire form of its instance (`InstanceExported`: name, reference, encoded parameters and translated connections), and every module they instantiate is exported. |
| Exporter.ExportInstance | hdl21/proto/to_proto.py:153-217 | A module target is referenced by its exported name and carries no parameters. A primitive is referenced as ("hdl21.primitives", its name), with the state unchanged, and carries its parameters' `asdict` fields as `ExportParams` encodes them. An external module is referenced as ("", its name), is exported, and carries its call's parameters as `ExportParams` encodes them. The connections are `ExportConnections` of the instance's. A parameter that cannot be encoded, or a connection that cannot be exported, makes the export fail. Any other target is a TypeError. |
| Exporter.ExportExternalModule | hdl21/proto/to_proto.py:117-132 | Memoized by id. The first export appends the module with its ports to the package's external list. The module list and order are untouched. |
| Exporter.ExportPortDir | hdl21/proto/to_proto.py:141-151 | Every port direction is mapped, and the reverse mapping recovers it. |
| Exporter.ExportPort | hdl21/proto/to_proto.py:134-139 | Name and width are kept, and the direction is recoverable. |
| Exporter.ExportPorts | hdl21/proto/to_proto.py:93-95 | One wire port per port, in order. |
| Exporter.ExportSignals | hdl21/proto/to_proto.py:97-100 | One wire signal per signal, in order, with name and width kept. |
| Exporter.ExportParams | hdl21/proto/to_proto.py:181-192 | Succeeds exactly when every value is none, int, float or str; otherwise it is a TypeError. None values are left out. An int becomes an integer, a float a double, a str a string. |
| Exporter.ExportConnection | hdl21/proto/to_proto.py:197-212 | Succeeds exactly when the connection is built only from signals, slices and concatenations. A signal keeps name and width. A slice keeps the signal name, top and bottom. A concatenation keeps its length and order, each part exported by the same rule. |
| Exporter.ExportParts | hdl21/proto/to_proto.py:219-242 | The parts of a concatenation are exported one by one, in order. It fails exactly when one part cannot be exported. |
| Exporter.ExportConnections | hdl21/proto/to_proto.py:196-215 | Succeeds exactly when every connection is exportable. The keys are kept and each value is exported by `ExportConnection`. |
| ExporterProps.ModuleOrdered | hdl21/proto/to_proto.py:77-115 | Exporting a module keeps the run invariant: every exported module of the hierarchy appears once, after each module it instantiates. |
| ExporterProps.ExportDependencyOrder | hdl21/proto/to_proto.py:34-38 | Dependency order: with faithful ids, the package lists exactly the exported modules, each once and in the order of the `modules` dictionary; every top is among them; and the export invariant holds: every exported module of the set keeps its qualified name and comes after each module it instantiates. So every module in the package, not only the tops, is defined after the modules it instantiates. |
| ExporterProps.ChildExported | hdl21/proto/to_proto.py:77-113 | Under the export invariant, each module instantiated by an exported module is exported itself, and defined before it. Applied repeatedly, this covers every module below an exported one. |
| ExporterProps.ExportModuleMemoized | hdl21/proto/to_proto.py:78-79 | Exporting a module a second time returns the first result and leaves the package unchanged. |
| ExporterProps.PortDirSurjective | hdl21/proto/to_proto.py:141-151 | Every wire direction is the export of some port direction. |
| ExporterProps.PortDirInjective | hdl21/proto/to_proto.py:141-151 | Two port directions share a wire direction only when they are equal. |
| ExporterProps.ParentChildNameClashUndetected | hdl21/proto/to_proto.py:89-113 | Because the name check runs before the children and recording happens after them, any module whose one instance targets a distinct leaf module of the same qualified name exports without error. The package then holds two modules of that name, the child's first. |
| ExporterProps.SiblingNameClashDetected | hdl21/proto/to_proto.py:60-75 | A module instantiating two distinct modules with one qualified name (the first a leaf) fails with a collision naming that pair. |
| ExporterProps.MosInstanceNotExportable | hdl21/proto/to_proto.py:181-192 | Every Mos instance fails to export with a TypeError, because its `tp` and `vth` parameters are enum members. |
| ExporterProps.LoweredMosNotExportable | hdl21/proto/to_proto.py:174-192 | The parameters of an ASAP7-lowered Mos call still fail to export, because `tp` is an enum member. |
| ExporterProps.ParamEncodingExamples | hdl21/proto/to_proto.py:182-190 | Worked cases: a diode with only a length exports just `l` as an integer, and a resistor exports `r` as a double. |
| ExporterProps.ConcatExample | hdl21/proto/to_proto.py:219-242 | A concatenation of a bus and a slice exports part by part, in order. |
| Primitives.CheckPorts | hdl21/primitives.py:41-47 | No error exactly when every port is named and visible as a port. Otherwise, the error is that of the first offending port. |
| Primitives.NewPrimitive | hdl21/primitives.py:35-47 | Construction succeeds exactly when the parameter type is a paramclass and every port is named and has PORT visibility, returning the fields unchanged. A non-paramclass is a TypeError, checked first. A port error is one of the port's. |
| Primitives.PortMap | hdl21/primitives.py:56-58 | The port dictionary has exactly the port names as keys, and each maps to a port of that name from the list. |
| Primitives.PortMapLastWins | hdl21/primitives.py:56-58 | A name maps to the last port in the list that carries it. |
| Primitives.PortsOfPortSeq | hdl21/primitives.py:56-58 | For a list of plain ports, the dictionary maps exactly the listed names, each to its port. |
| Primitives.Call | hdl21/primitives.py:71-76 | Calling a primitive gives a call with that primitive and unchanged parameters. It fails with a TypeError exactly when the parameters are not of the primitive's parameter type. |
| Primitives.CallPorts | hdl21/primitives.py:78-80 | A call's ports are its primitive's port dictionary. |
| Primitives.CheckMosParams | hdl21/primitives.py:108-121 | Accepted exactly when w > 0, l > 0, npar > 0 and nser > 0. An unset width fails the comparison itself (TypeError). A width of at most 0 is a ValueError. |
| Primitives.DefaultMosParamsRejected | hdl21/primitives.py:101-110 | All-default `MosParams` are rejected with a TypeError, because the unset width is compared with 0. |
| Primitives.MosWithType | hdl21/primitives.py:132-139 | Succeeds exactly when the parameters pass the checks. Gives a Mos call whose parameters equal the input except for the device type. |
| Primitives.Nmos | hdl21/primitives.py:132-134 | A Mos call with the input parameters and type NMOS, whenever those parameters are valid. |
| Primitives.Pmos | hdl21/primitives.py:137-139 | A Mos call with the input parameters and type PMOS, whenever those parameters are valid. |
| Primitives.LibraryPrimitivesValid | hdl21/primitives.py:124-226 | Mos, Diode, Resistor, Capacitor, Inductor and Short all pass the construction checks. |
| Asap7.MakeModule | hdl21pdk/asap7/asap7.py:44-51 | A table module has domain "asap7", a copy of Mos's port list, and the name built from the type's enum `str()`, "mos" and the threshold suffix. |
| Asap7.Lookup | hdl21pdk/asap7/asap7.py:27-36 | A dictionary literal holds a key exactly when some pair lists it, and the value held is one listed with it (which one: `Asap7.LookupLastWins`). |
| Asap7.LookupLastWins | hdl21pdk/asap7/asap7.py:27-36 | When a key is listed more than once, the dictionary holds the value of the last pair that lists it. |
| Asap7.BuildRow | hdl21pdk/asap7/asap7.py:42-54 | The inner loop adds exactly one entry per listed threshold key for its type, each an ASAP7 module named after that threshold's suffix. |
| Asap7.BuildTable | hdl21pdk/asap7/asap7.py:41-57 | The table has exactly one entry per (listed type, listed threshold) pair, each an ASAP7 module with Mos's ports, named after its pair. |
| Asap7.Asap7TableKeys | hdl21pdk/asap7/asap7.py:27-57 | For each device type, the table's threshold keys are exactly STD, "LOW", "SLVT" and "SRAM". |
| Asap7.TypeListed | hdl21pdk/asap7/asap7.py:27-30 | Both device types are listed. |
| Asap7.VtListed | hdl21pdk/asap7/asap7.py:31-36 | The threshold list names exactly STD, "LOW", "SLVT" and "SRAM". |
| Asap7.RowStep | hdl21pdk/asap7/asap7.py:42-54 | One step of the inner loop: the first key's entry plus the row of the rest is the row of the whole list, a later listing of a key overriding an earlier one. |
| Asap7.TableStep | hdl21pdk/asap7/asap7.py:41-57 | One step of the outer loop: the first type's row plus the table of the rest is the table of the whole list. |
| Asap7.RvtListed | hdl21pdk/asap7/asap7.py:31-36 | The standard threshold is listed with the suffix "_rvt". |
| Asap7.MosModule | hdl21pdk/asap7/asap7.py:83-88 | Returns the table entry for (type, threshold). A miss is a RuntimeError. |
| Asap7.RvtModuleFound | hdl21pdk/asap7/asap7.py:83-88 | Any table built from lists that list the type and give the threshold "_rvt" yields the "_rvt" ASAP7 module of that type. |
| Asap7.Asap7CoversAllParams | hdl21pdk/asap7/asap7.py:83-88 | Every parameter set finds its module in the ASAP7 table, and it is always the regular-threshold module of its type. |
| Asap7.ModParams | hdl21pdk/asap7/asap7.py:100-103 | The translated parameters are every `MosParams` field except `vth`, with values unchanged. |
| Asap7.MosModuleCall | hdl21pdk/asap7/asap7.py:90-108 | A cached parameter set returns its cached call with the cache unchanged. Otherwise it succeeds exactly when the table has the key, creating the call of that module with the translated parameters and caching it. The cache only grows, by at most this one key, and a sound cache stays sound. |
| Asap7.CacheTransparent | hdl21pdk/asap7/asap7.py:90-108 | A cache holding only calls a miss would create changes no result: the same success and the same call as with an empty cache. |
| Asap7.LookupAgainSharesCall | hdl21pdk/asap7/asap7.py:93-94 | A repeated lookup of equal parameters returns the identical call and adds nothing. |
| Asap7.ReplacePrimitive | hdl21pdk/asap7/asap7.py:74-81 | A non-Mos primitive call is returned unchanged. A Mos call is replaced by the result of `MosModuleCall`. The result is never a Mos call, and a sound cache stays sound. |
| Asap7.ReplacePrimitiveMatches | hdl21pdk/asap7/asap7.py:74-108 | With a sound cache, replacing a primitive call succeeds exactly when it is not Mos, or is a Mos call whose (type, threshold) pair is in the table. A Mos call then becomes the call of that table entry with every parameter but `vth`, whether the cache hit or missed. |
| Asap7.LowerInstance | hdl21pdk/asap7/asap7.py:66-72 | A primitive target is replaced by `ReplacePrimitive` and not descended into. A module target is lowered in place, keeping its identity. Any other target is left alone. No Mos remains below the instance. `Asap7.LowerInstanceMatches` pins the result down. |
| Asap7.LowerInstances | hdl21pdk/asap7/asap7.py:66-72 | Each instance is lowered in order, keeping id, name and connections, and none instantiates Mos afterwards. `Asap7.LowerInstancesMatches` pins the result down. |
| Asap7.LowerModule | hdl21pdk/asap7/asap7.py:60-72 | After the walk, no Mos is instantiated anywhere below the module through instances. Only instance targets change, and a sound cache stays sound. `Asap7.LowerModuleMatches` pins the result down. |
| Asap7.LowerInstanceMatches | hdl21pdk/asap7/asap7.py:66-108 | With a sound cache (the walker starts from an empty one), lowering an instance succeeds exactly when every Mos call below it has a table entry (`InstanceLowerable`). The result is then the reference lowering `LoweredInstance`, which does not mention the cache. Each Mos call becomes a call of its (type, threshold) module with every parameter but `vth`. A module target is lowered in place. Every other target, and the instance's id, name and connections, are unchanged. |
| Asap7.LowerInstancesMatches | hdl21pdk/asap7/asap7.py:66-72 | With a sound cache, lowering a list of instances succeeds exactly when each is lowerable. Each result instance is then the reference lowering of the instance at the same position. |
| Asap7.LowerModuleMatches | hdl21pdk/asap7/asap7.py:60-108 | With a sound cache, lowering a module succeeds exactly when `ModuleLowerable` holds. The result is then `LoweredModule`: the module with only its instances replaced, each by its reference lowering. |
| Asap7.LowerMosInstanceWith | hdl21pdk/asap7/asap7.py:66-108 | With any table holding its key, lowering a Mos instance from an empty cache gives a call of that key's module with the translated parameters, and caches exactly that call. |
| Asap7.LowerMosInstance | hdl21pdk/asap7/asap7.py:66-108 | A Mos instance lowered with the ASAP7 table becomes a call of the "_rvt" module of its type, carrying every parameter but `vth`. |

## Left out

- Protobuf plumbing (`circuit_pb2` messages, `CopyFrom`, map insertion):
  the wire package, module, instance and connection are plain datatypes in
  `Proto`.
- The `elaborate(...)` pipeline that `to_proto` runs on each top (the
  context, the generator pass and port-reference resolution) is outside
  this model. `Exporter.ToProto` takes it as a parameter.
- Exporter.ToProto: states only what follows from elaboration failing or
  succeeding, because the elaboration it calls is a parameter.
- The concrete elaboration passes are left out. They appear only as
  `Hooks`, which are total functions: a hook that raises is not modelled.
- `HierarchyWalker`, `from_proto` and `compile` in the ASAP7 adapter are
  not part of this model.
- Elaborator.Elaborate: the `_elaborated` flags are kept in the run's
  state, which `Elaborate` does not return. In the source they are set on
  the graph's own nodes and outlast the run, also those set before an
  error. `ElabModuleBase` states which nodes a successful walk flags.
- Exporter.ExportExternalModule: `ExternalModule` is not part of this
  model beyond its name, identity and port list. The source exports the
  values of its name-keyed `ports` dictionary; the model exports the port
  list as given, so it assumes the port names are distinct.
- Asap7.LowerModule: it stands in for the walk `HierarchyWalker` performs.
  It descends through instance targets only. Instance arrays and bundles
  are left as they are, and a module reached twice is walked twice.
- Asap7.BuildTable: does not state that the eight modules are distinct
  objects. Their identities are given as consecutive ids from a parameter,
  and only their range per row is stated.
- `MosVth` has only `STD`. The adapter's table also names `MosVth.LOW`,
  which does not exist, so the module would fail at import. The model
  keeps that key as the name "LOW", beside "SLVT" and "SRAM", so that the
  table can be built. None of those three can be reached from a
  `MosParams` value.
- The message of the ASAP7 miss error formats `modname`, the module-level
  name the table loop assigned last (`MosType.PMOSmos_sram`), not the name
  of the missing key. Messages are not modelled, only the error kind
  (`RuntimeError`).
- Asap7.ReplacePrimitive: a Mos call whose parameters are not a
  `MosParams` cannot be built (`PrimitiveCall` rejects it). The model
  reports it as `InvalidParams` rather than leaving the case out.
- `primcall.prim is Mos` is modelled as value equality with `Mos`.
- The `ValueError` at the end of `export_port_dir` is unreachable here,
  because the port direction is a closed sum type. The other fall-through
  `raise`s are modelled by explicit variants. A connection or
  concatenation part of no handled kind (the `TypeError`s of
  hdl21/proto/to_proto.py:210-211 and 240-241) is an `OtherConn`, which
  `ExportConnection` and `ExportParts` reject with `InvalidConnection`.
  `OtherVal` and `IGenerator` play the same part for parameter values and
  instance targets.
- Cyclic hierarchies are not modelled. A module that instantiates itself,
  directly or through its children, cannot be built from the model's
  well-founded datatypes. In the source, both the elaborator's cache
  (hdl21/elab/elaborators/base.py:76-95) and the exporter's `modules`
  (hdl21/proto/to_proto.py:77-112) are written only after the children are
  done, so such a hierarchy recurses until Python raises `RecursionError`.
- Module interfaces are a list of names. Only whether the list is empty
  matters.
- pydantic and paramclass machinery (`isparamclass`, `asdict`, `replace`)
  is outside the model. Paramclass-ness is a flag on `ParamType` and
  `asdict` is `Circuit.AsDict`.
- Float-valued parameters (resistance, capacitance, inductance) are opaque
  values, and no arithmetic is done on them.
- Python's `bool` counting as an `int` in the parameter loop is not
  modelled, because no parameter here is a `bool`.
- The IHP130 PDK package (install configuration, an empty walker, a
  compile function calling an unseen walk) is not part of this model.

=== FILE: asap7.dfy ===
/**
  The ASAP7 technology lowering: the table of ASAP7 transistor external
  modules, keyed by (device type, threshold flavour), and the walker that
  rewrites every `Mos` primitive instance into a call of the matching
  external module, caching those calls by parameter value.

  The table is built from the two name lists of the adapter. The threshold
  keys of the list are one `MosVth` member and three names: `MosVth` has
  only `STD`, so the other three flavours can never be looked up by a
  `MosParams` value.
 */
module Asap7 {
  import opened Common
  import opened Circuit
  import opened Primitives

  /** A key of the threshold-name list: a `MosVth` member or a bare name. */
  datatype VtKey = VthKey(vth: MosVth) | NameKey(name: string)

  type MosTable = map<(MosType, VtKey), ExternalModule>

  const TypeNames: seq<(MosType, string)> := [(NMOS, "n"), (PMOS, "p")]

  const VtNames: seq<(VtKey, string)> :=
    [(VthKey(STD), "_rvt"), (NameKey("LOW"), "_lvt"), (NameKey("SLVT"), "_slvt"), (NameKey("SRAM"), "_sram")]

  /** The module name the table loop formats: the device type's enum `str()`,
      not its short name, then "mos" and the threshold suffix. */
  function MosModuleName(tp: MosType, vtname: string): string
  {
    MosTypeStr(tp) + "mos" + vtname
  }

  /** One external module of the table, with Mos's ports. */
  function MakeModule(id: NodeId, tp: MosType, vtname: string): (em: ExternalModule)
    ensures em.id == id && em.domain == "asap7" && em.portList == Mos.portList
    ensures em.name == MosModuleName(tp, vtname)
  {
    var name := MosModuleName(tp, vtname);
    ExternalModule(id, "asap7", name, "ASAP7 PDK Mos " + name, Mos.portList)
  }

  /** The value a Python dict built from the pairs `s`, in order, holds for
      `k`: the last pair with that key wins. */
  function Lookup<K(==), V>(s: seq<(K, V)>, k: K): (r: Option<V>)
    ensures r.None? <==> forall i :: 0 <= i < |s| ==> s[i].0 != k
    ensures r.Some? ==> exists i :: 0 <= i < |s| && s[i] == (k, r.value)
  {
    if s == [] then None
    else
      var rest := Lookup(s[1..], k);
      assert forall i :: 1 <= i < |s| ==> s[i] == s[1..][i - 1];
      if rest.Some? then
        rest
      else if s[0].0 == k then Some(s[0].1)
      else None
  }

  /** Which of the pairs for `k` wins: the last one listed, as when a
      Python dict literal repeats a key. */
  lemma {:induction false} LookupLastWins<K, V>(s: seq<(K, V)>, k: K, i: nat)
    requires i < |s| && s[i].0 == k
    requires forall j :: i < j < |s| ==> s[j].0 != k
    ensures Lookup(s, k) == Some(s[i].1)
  {
    if i == 0 {
      assert forall j :: 0 <= j < |s| - 1 ==> s[1..][j].0 == s[j + 1].0;
    } else {
      assert forall j :: i - 1 < j < |s| - 1 ==> s[1..][j].0 == s[j + 1].0;
      LookupLastWins(s[1..], k, i - 1);
    }
  }

  /** An entry of the table for type `tp` and threshold key `vt`: an ASAP7
      module with Mos's ports, named after the threshold name listed for `vt`. */
  predicate EntryFor(vts: seq<(VtKey, string)>, tp: MosType, vt: VtKey, em: ExternalModule)
  {
    && Lookup(vts, vt).Some?
    && em.domain == "asap7"
    && em.portList == Mos.portList
    && em.name == MosModuleName(tp, Lookup(vts, vt).value)
  }

  /** The properties of a row of the table for type `tp` built from `vts`,
      its module ids drawn from `firstId` on. */
  ghost predicate RowFor(tp: MosType, vts: seq<(VtKey, string)>, firstId: NodeId, t: MosTable)
  {
    && (forall k :: k in t <==> k.0 == tp && Lookup(vts, k.1).Some?)
    && (forall k :: k in t ==> EntryFor(vts, tp, k.1, t[k]))
    && (forall k :: k in t ==> firstId <= t[k].id < firstId + |vts|)
  }

  /** The inner loop over threshold names, for one device type. Modules get
      consecutive ids from `firstId`. */
  function BuildRow(tp: MosType, vts: seq<(VtKey, string)>, firstId: NodeId): (t: MosTable)
    ensures RowFor(tp, vts, firstId, t)
  {
    if vts == [] then map[]
    else
      var rest := BuildRow(tp, vts[1..], firstId + 1);
      RowStep(tp, vts, firstId, rest);
      map[(tp, vts[0].0) := MakeModule(firstId, tp, vts[0].1)] + rest
  }

  /** Adding the entry for the first listed key to the row of the others
      gives the row of the whole list: a later listing of the same key
      overrides the first one in both. */
  lemma RowStep(tp: MosType, vts: seq<(VtKey, string)>, firstId: NodeId, rest: MosTable)
    requires |vts| > 0 && RowFor(tp, vts[1..], firstId + 1, rest)
    ensures RowFor(tp, vts, firstId, map[(tp, vts[0].0) := MakeModule(firstId, tp, vts[0].1)] + rest)
  {
    var t := map[(tp, vts[0].0) := MakeModule(firstId, tp, vts[0].1)] + rest;
    forall k | k in t
      ensures EntryFor(vts, tp, k.1, t[k])
    {
      if k in rest {
        assert Lookup(vts, k.1) == Lookup(vts[1..], k.1);
      } else {
        assert Lookup(vts[1..], k.1).None?;
      }
    }
    forall k: (MosType, VtKey)
      ensures k in t <==> k.0 == tp && Lookup(vts, k.1).Some?
    {
      if k.0 == tp && Lookup(vts, k.1).Some? && Lookup(vts[1..], k.1).None? {
        assert vts[0].0 == k.1;
      }
    }
  }

  /** The properties of a table built from the type list `tps` and the
      threshold list `vts`. */
  ghost predicate TableFor(tps: seq<(MosType, string)>, vts: seq<(VtKey, string)>, t: MosTable)
  {
    && (forall k :: k in t <==> Lookup(tps, k.0).Some? && Lookup(vts, k.1).Some?)
    && (forall k :: k in t ==> EntryFor(vts, k.0, k.1, t[k]))
  }

  /** The outer loop over device types. */
  function BuildTable(tps: seq<(MosType, string)>, vts: seq<(VtKey, string)>, firstId: NodeId): (t: MosTable)
    ensures TableFor(tps, vts, t)
  {
    if tps == [] then map[]
    else
      var row := BuildRow(tps[0].0, vts, firstId);
      var rest := BuildTable(tps[1..], vts, firstId + |vts|);
      TableStep(tps, vts, firstId, row, rest);
      row + rest
  }

  /** Adding the row of the first listed type to the table of the others
      gives the table of the whole list. */
  lemma TableStep(tps: seq<(MosType, string)>, vts: seq<(VtKey, string)>, firstId: NodeId, row: MosTable, rest: MosTable)
    requires |tps| > 0 && RowFor(tps[0].0, vts, firstId, row) && TableFor(tps[1..], vts, rest)
    ensures TableFor(tps, vts, row + rest)
  {
    forall k: (MosType, VtKey)
      ensures k in row + rest <==> Lookup(tps, k.0).Some? && Lookup(vts, k.1).Some?
    {
      if Lookup(tps[1..], k.0).None? && Lookup(tps, k.0).Some? {
        assert tps[0].0 == k.0;
      }
    }
  }

  /** `_mos_modules`, its modules given ids from `firstId` on. */
  function Asap7Modules(firstId: NodeId): MosTable
  {
    BuildTable(TypeNames, VtNames, firstId)
  }

  /** The table key of a parameter set. */
  function KeyOf(p: MosParams): (MosType, VtKey)
  {
    (p.tp, VthKey(p.vth))
  }

  /** `Asap7Walker.mos_module`. */
  function MosModule(table: MosTable, p: MosParams): (r: Result<ExternalModule>)
    ensures r.Ok? <==> KeyOf(p) in table
    ensures r.Ok? ==> r.value == table[KeyOf(p)]
    ensures r.Err? ==> r.error == NoMosModule && ClassOf(r.error) == RuntimeErrorClass
  {
    if KeyOf(p) in table then Ok(table[KeyOf(p)]) else Err(NoMosModule)
  }

  /** The translated parameters: `asdict(params)` without `vth`. */
  function ModParams(p: MosParams): (d: map<string, ParamValue>)
    ensures d.Keys == {"w", "l", "nser", "npar", "tp"}
    ensures forall k :: k in d ==> d[k] == AsDict(MosParamsVal(p))[k]
  {
    AsDict(MosParamsVal(p)) - {"vth"}
  }

  /** The substitution cache of the walker, keyed by parameter value. */
  type CallCache = map<MosParams, ExternalModuleCall>

  /** Every cached call is the one a miss would create. */
  predicate CacheSound(table: MosTable, cache: CallCache)
  {
    forall p :: p in cache ==> KeyOf(p) in table && cache[p] == ExternalModuleCall(table[KeyOf(p)], ModParams(p))
  }

  /** `Asap7Walker.mos_module_call`. */
  function MosModuleCall(table: MosTable, cache: CallCache, p: MosParams): (r: Result<(ExternalModuleCall, CallCache)>)
    ensures p in cache ==> r == Ok((cache[p], cache))
    ensures p !in cache ==> (r.Ok? <==> KeyOf(p) in table)
    ensures p !in cache && r.Ok? ==>
      && r.value.0 == ExternalModuleCall(table[KeyOf(p)], ModParams(p))
      && r.value.1 == cache[p := r.value.0]
    ensures r.Ok? ==> MapGrows(cache, r.value.1) && p in r.value.1 && r.value.1[p] == r.value.0
    ensures r.Ok? ==> r.value.1.Keys <= cache.Keys + {p}
    ensures CacheSound(table, cache) && r.Ok? ==> CacheSound(table, r.value.1)
    ensures r.Err? ==> r.error == NoMosModule
  {
    if p in cache then Ok((cache[p], cache))
    else
      var mod :- MosModule(table, p);
      var call := ExternalModuleCall(mod, ModParams(p));
      CacheExtendSound(table, cache, p);
      Ok((call, cache[p := call]))
  }

  /** Caching the call a miss creates keeps a sound cache sound. */
  lemma CacheExtendSound(table: MosTable, cache: CallCache, p: MosParams)
    requires KeyOf(p) in table
    ensures CacheSound(table, cache) ==>
      CacheSound(table, cache[p := ExternalModuleCall(table[KeyOf(p)], ModParams(p))])
  {
    var c' := cache[p := ExternalModuleCall(table[KeyOf(p)], ModParams(p))];
    if CacheSound(table, cache) {
      forall q | q in c'
        ensures KeyOf(q) in table && c'[q] == ExternalModuleCall(table[KeyOf(q)], ModParams(q))
      {
        if q != p {
          assert c'[q] == cache[q];
        }
      }
    }
  }

  /** `Asap7Walker.replace_primitive`: Mos calls become external module
      calls; every other primitive call is returned as it is. A Mos call
      whose parameters are not a `MosParams` cannot be constructed (`Call`
      rejects it); it is reported as `InvalidParams`. */
  function ReplacePrimitive(table: MosTable, cache: CallCache, c: PrimitiveCall): (r: Result<(Instantiable, CallCache)>)
    ensures c.prim != Mos ==> r == Ok((IPrimitive(c), cache))
    ensures c.prim == Mos && c.params.MosParamsVal? ==>
      match MosModuleCall(table, cache, c.params.mos)
      case Ok((call, cache')) => r == Ok((IExternal(call), cache'))
      case Err(e) => r == Err(e)
    ensures c.prim == Mos && !c.params.MosParamsVal? ==> r == Err(InvalidParams)
    ensures r.Ok? ==> MapGrows(cache, r.value.1)
    ensures CacheSound(table, cache) && r.Ok? ==> CacheSound(table, r.value.1)
    ensures r.Ok? ==> r.value.0.IExternal? || (r.value.0.IPrimitive? && r.value.0.prim.prim != Mos)
  {
    if c.prim != Mos then Ok((IPrimitive(c), cache))
    else if !c.params.MosParamsVal? then Err(InvalidParams)
    else
      var (call, cache') :- MosModuleCall(table, cache, c.params.mos);
      Ok((IExternal(call), cache'))
  }

  /** No instance reachable from `m` through instances targets the Mos
      primitive. */
  predicate MosFree(m: Module)
    decreases m, 1
  {
    forall i :: 0 <= i < |m.instances| ==> InstanceMosFree(m.instances[i])
  }

  predicate InstanceMosFree(inst: Instance)
    decreases inst, 0
  {
    match inst.target
    case Some(IPrimitive(c)) => c.prim != Mos
    case Some(IModule(c)) => MosFree(c)
    case _ => true
  }

  /** A primitive call the walk can replace: anything but Mos, or a Mos
      call whose (type, threshold) pair has a module in the table. */
  predicate MosLowerable(table: MosTable, c: PrimitiveCall)
  {
    c.prim != Mos || (c.params.MosParamsVal? && KeyOf(c.params.mos) in table)
  }

  /** Every primitive call reachable from `m` through instances is
      replaceable. */
  predicate ModuleLowerable(table: MosTable, m: Module)
    decreases m, 1
  {
    forall i :: 0 <= i < |m.instances| ==> InstanceLowerable(table, m.instances[i])
  }

  predicate InstanceLowerable(table: MosTable, inst: Instance)
    decreases inst, 0
  {
    match inst.target
    case Some(IPrimitive(c)) => MosLowerable(table, c)
    case Some(IModule(c)) => ModuleLowerable(table, c)
    case _ => true
  }

  /** Reference definition of the walk's result, independent of the cache:
      `inst'` is `inst` with each Mos call replaced by the external call
      built from the table entry of its (type, threshold) pair and its
      remaining parameters, module targets lowered in place, and nothing
      else changed. */
  predicate LoweredInstance(table: MosTable, inst: Instance, inst': Instance)
    decreases inst, 0
  {
    && inst'.id == inst.id && inst'.name == inst.name && inst'.conns == inst.conns
    && match inst.target
       case Some(IPrimitive(c)) =>
         if c.prim != Mos then inst'.target == inst.target
         else
           && c.params.MosParamsVal? && KeyOf(c.params.mos) in table
           && inst'.target == Some(IExternal(ExternalModuleCall(table[KeyOf(c.params.mos)], ModParams(c.params.mos))))
       case Some(IModule(c)) =>
         inst'.target.Some? && inst'.target.value.IModule? && LoweredModule(table, c, inst'.target.value.m)
       case _ => inst'.target == inst.target
  }

  predicate LoweredModule(table: MosTable, m: Module, m': Module)
    decreases m, 1
  {
    && m' == m.(instances := m'.instances)
    && |m'.instances| == |m.instances|
    && forall i :: 0 <= i < |m.instances| ==> LoweredInstance(table, m.instances[i], m'.instances[i])
  }

  /** `Asap7Walker.visit_instance`, together with the descent the base
      walker performs for a module target. A primitive target is replaced
      and not descended into; a module target is lowered in place, keeping
      its identity; any other target is left alone. */
  function LowerInstance(table: MosTable, cache: CallCache, inst: Instance): (r: Result<(Instance, CallCache)>)
    decreases inst, 1
    ensures r.Ok? ==> MapGrows(cache, r.value.1)
    ensures CacheSound(table, cache) && r.Ok? ==> CacheSound(table, r.value.1)
    ensures r.Ok? ==> InstanceMosFree(r.value.0)
    ensures r.Ok? ==> var inst' := r.value.0;
      inst'.id == inst.id && inst'.name == inst.name && inst'.conns == inst.conns
    ensures inst.target.Some? && inst.target.value.IPrimitive? ==>
      match ReplacePrimitive(table, cache, inst.target.value.prim)
      case Ok((t, cache')) => r == Ok((inst.(target := Some(t)), cache'))
      case Err(e) => r == Err(e)
    ensures inst.target.Some? && inst.target.value.IModule? && r.Ok? ==>
      && r.value.0.target.Some? && r.value.0.target.value.IModule?
      && r.value.0.target.value.m.id == inst.target.value.m.id
    ensures inst.target.None? || inst.target.value.IExternal? || inst.target.value.IGenerator? ==>
      r == Ok((inst, cache))
  {
    match inst.target
    case Some(IPrimitive(c)) =>
      var (t, cache') :- ReplacePrimitive(table, cache, c);
      Ok((inst.(target := Some(t)), cache'))
    case Some(IModule(child)) =>
      var (child', cache') :- LowerModule(table, cache, child);
      Ok((inst.(target := Some(IModule(child'))), cache'))
    case _ => Ok((inst, cache))
  }

  function LowerInstances(table: MosTable, cache: CallCache, insts: seq<Instance>): (r: Result<(seq<Instance>, CallCache)>)
    decreases insts
    ensures r.Ok? ==> MapGrows(cache, r.value.1) && |r.value.0| == |insts|
    ensures CacheSound(table, cache) && r.Ok? ==> CacheSound(table, r.value.1)
    ensures r.Ok? ==> forall i :: 0 <= i < |insts| ==>
      && InstanceMosFree(r.value.0[i])
      && r.value.0[i].id == insts[i].id && r.value.0[i].name == insts[i].name
      && r.value.0[i].conns == insts[i].conns
  {
    if insts == [] then Ok(([], cache))
    else
      var (i0, cache1) :- LowerInstance(table, cache, insts[0]);
      var (rest, cache2) :- LowerInstances(table, cache1, insts[1..]);
      assert forall i :: 1 <= i < |insts| ==> insts[i] == insts[1..][i - 1];
      Ok(([i0] + rest, cache2))
  }

  /** The walk over a module's instances: afterwards no Mos primitive is
      instantiated anywhere below it, and nothing but instance targets has
      changed. */
  function LowerModule(table: MosTable, cache: CallCache, m: Module): (r: Result<(Module, CallCache)>)
    decreases m, 2
    ensures r.Ok? ==> MapGrows(cache, r.value.1)
    ensures CacheSound(table, cache) && r.Ok? ==> CacheSound(table, r.value.1)
    ensures r.Ok? ==> MosFree(r.value.0)
    ensures r.Ok? ==> r.value.0 == m.(instances := r.value.0.instances)
    ensures r.Ok? ==> |r.value.0.instances| == |m.instances|
  {
    var (insts, cache') :- LowerInstances(table, cache, m.instances);
    Ok((m.(instances := insts), cache'))
  }

  /** With a sound cache, lowering an instance succeeds exactly when every
      Mos call below it has a table entry, and its result is the reference
      lowering. */
  lemma {:induction false} LowerInstanceMatches(table: MosTable, cache: CallCache, inst: Instance)
    requires CacheSound(table, cache)
    ensures LowerInstance(table, cache, inst).Ok? <==> InstanceLowerable(table, inst)
    ensures LowerInstance(table, cache, inst).Ok? ==>
      LoweredInstance(table, inst, LowerInstance(table, cache, inst).value.0)
    decreases inst, 1
  {
    match inst.target
    case Some(IModule(child)) =>
      LowerModuleMatches(table, cache, child);
      ModuleTargetMatches(table, cache, inst, child);
    case Some(IPrimitive(c)) =>
      ReplacePrimitiveMatches(table, cache, c);
      PrimitiveTargetMatches(table, cache, inst, c);
    case _ =>
  }

  /** The module-target step of `LowerInstanceMatches`. */
  lemma ModuleTargetMatches(table: MosTable, cache: CallCache, inst: Instance, child: Module)
    requires inst.target == Some(IModule(child))
    requires LowerModule(table, cache, child).Ok? <==> ModuleLowerable(table, child)
    requires LowerModule(table, cache, child).Ok? ==>
      LoweredModule(table, child, LowerModule(table, cache, child).value.0)
    ensures LowerInstance(table, cache, inst).Ok? <==> InstanceLowerable(table, inst)
    ensures LowerInstance(table, cache, inst).Ok? ==>
      LoweredInstance(table, inst, LowerInstance(table, cache, inst).value.0)
  {
  }

  /** The primitive-target step of `LowerInstanceMatches`. */
  lemma PrimitiveTargetMatches(table: MosTable, cache: CallCache, inst: Instance, c: PrimitiveCall)
    requires inst.target == Some(IPrimitive(c))
    requires ReplacePrimitive(table, cache, c).Ok? <==> MosLowerable(table, c)
    requires ReplacePrimitive(table, cache, c).Ok? && c.prim == Mos ==>
      ReplacePrimitive(table, cache, c).value.0
        == IExternal(ExternalModuleCall(table[KeyOf(c.params.mos)], ModParams(c.params.mos)))
    ensures LowerInstance(table, cache, inst).Ok? <==> InstanceLowerable(table, inst)
    ensures LowerInstance(table, cache, inst).Ok? ==>
      LoweredInstance(table, inst, LowerInstance(table, cache, inst).value.0)
  {
  }

  /** With a sound cache, replacing a primitive call succeeds exactly when
      it is lowerable, and a Mos call becomes the call its table entry and
      parameters determine. */
  lemma ReplacePrimitiveMatches(table: MosTable, cache: CallCache, c: PrimitiveCall)
    requires CacheSound(table, cache)
    ensures ReplacePrimitive(table, cache, c).Ok? <==> MosLowerable(table, c)
    ensures ReplacePrimitive(table, cache, c).Ok? && c.prim == Mos ==>
      ReplacePrimitive(table, cache, c).value.0
        == IExternal(ExternalModuleCall(table[KeyOf(c.params.mos)], ModParams(c.params.mos)))
  {
    if c.prim == Mos && c.params.MosParamsVal? && c.params.mos in cache {
      assert KeyOf(c.params.mos) in table;
    }
  }

  lemma {:induction false} LowerInstancesMatches(table: MosTable, cache: CallCache, insts: seq<Instance>)
    requires CacheSound(table, cache)
    ensures LowerInstances(table, cache, insts).Ok? <==>
      forall i :: 0 <= i < |insts| ==> InstanceLowerable(table, insts[i])
    ensures LowerInstances(table, cache, insts).Ok? ==>
      forall i :: 0 <= i < |insts| ==> LoweredInstance(table, insts[i], LowerInstances(table, cache, insts).value.0[i])
    decreases insts
  {
    if insts != [] {
      LowerInstanceMatches(table, cache, insts[0]);
      assert forall i :: 1 <= i < |insts| ==> insts[i] == insts[1..][i - 1];
      if LowerInstance(table, cache, insts[0]).Ok? {
        var (_, cache1) := LowerInstance(table, cache, insts[0]).value;
        LowerInstancesMatches(table, cache1, insts[1..]);
      }
    }
  }

  /** With a sound cache, lowering a module succeeds exactly when every Mos
      call below it has a table entry, and its result is the reference
      lowering. */
  lemma {:induction false} LowerModuleMatches(table: MosTable, cache: CallCache, m: Module)
    requires CacheSound(table, cache)
    ensures LowerModule(table, cache, m).Ok? <==> ModuleLowerable(table, m)
    ensures LowerModule(table, cache, m).Ok? ==> LoweredModule(table, m, LowerModule(table, cache, m).value.0)
    decreases m, 2
  {
    LowerInstancesMatches(table, cache, m.instances);
  }

  /** The table has exactly the eight (type, threshold) pairs of the two
      name lists. */
  lemma Asap7TableKeys(firstId: NodeId)
    ensures forall tp: MosType, vt: VtKey :: (tp, vt) in Asap7Modules(firstId) <==>
      vt in {VthKey(STD), NameKey("LOW"), NameKey("SLVT"), NameKey("SRAM")}
  {
    forall tp: MosType, vt: VtKey
      ensures (tp, vt) in Asap7Modules(firstId) <==>
        vt in {VthKey(STD), NameKey("LOW"), NameKey("SLVT"), NameKey("SRAM")}
    {
      TypeListed(tp);
      VtListed(vt);
      TableKeysOfListed(TypeNames, VtNames, firstId, tp, vt);
    }
  }

  /** For a listed type, the built table holds exactly the listed threshold
      keys. */
  lemma TableKeysOfListed(tps: seq<(MosType, string)>, vts: seq<(VtKey, string)>, firstId: NodeId, tp: MosType, vt: VtKey)
    requires Lookup(tps, tp).Some?
    ensures (tp, vt) in BuildTable(tps, vts, firstId) <==> Lookup(vts, vt).Some?
  {
  }

  /** The threshold list names exactly four keys. */
  lemma VtListed(vt: VtKey)
    ensures Lookup(VtNames, vt).Some? <==> vt in {VthKey(STD), NameKey("LOW"), NameKey("SLVT"), NameKey("SRAM")}
  {
    var vts := VtNames;
    assert |vts| == 4;
    assert vts[0].0 == VthKey(STD) && vts[1].0 == NameKey("LOW");
    assert vts[2].0 == NameKey("SLVT") && vts[3].0 == NameKey("SRAM");
  }

  /** Both device types are listed. */
  lemma TypeListed(tp: MosType)
    ensures Lookup(TypeNames, tp).Some?
  {
    var tps := TypeNames;
    if tp == NMOS {
      assert tps[0].0 == tp;
    } else {
      assert tps[1].0 == tp;
    }
  }

  /** The regular threshold is listed once, with the suffix "_rvt". */
  lemma RvtListed()
    ensures Lookup(VtNames, VthKey(STD)) == Some("_rvt")
  {
    var vts := VtNames;
    var rest := vts[1..];
    assert |rest| == 3 && rest[0].0 == NameKey("LOW") && rest[1].0 == NameKey("SLVT") && rest[2].0 == NameKey("SRAM");
    assert Lookup(rest, VthKey(STD)).None?;
    assert vts[0] == (VthKey(STD), "_rvt");
  }

  /** A table built from lists that list the parameters' type and map their
      threshold to "_rvt" holds the regular-threshold module of that type. */
  lemma {:induction false} RvtModuleFound(tps: seq<(MosType, string)>, vts: seq<(VtKey, string)>, firstId: NodeId, p: MosParams)
    requires Lookup(tps, p.tp).Some? && Lookup(vts, VthKey(p.vth)) == Some("_rvt")
    ensures MosModule(BuildTable(tps, vts, firstId), p).Ok?
    ensures MosModule(BuildTable(tps, vts, firstId), p).value.name == MosTypeStr(p.tp) + "mos_rvt"
    ensures MosModule(BuildTable(tps, vts, firstId), p).value.domain == "asap7"
  {
    var t := BuildTable(tps, vts, firstId);
    var k := KeyOf(p);
    assert k in t;
    RvtEntryNamed(vts, p.tp, k.1, t[k]);
  }

  /** An entry for a threshold listed as "_rvt" is the "_rvt" module. */
  lemma RvtEntryNamed(vts: seq<(VtKey, string)>, tp: MosType, vt: VtKey, em: ExternalModule)
    requires EntryFor(vts, tp, vt, em) && Lookup(vts, vt) == Some("_rvt")
    ensures em.name == MosTypeStr(tp) + "mos_rvt" && em.domain == "asap7"
  {
    var r := MosTypeStr(tp);
    assert r + "mos" + "_rvt" == r + "mos_rvt";
  }

  /** Every parameter set finds its module in the ASAP7 table, and it is
      always the regular-threshold one: the only `MosVth` member is `STD`. */
  lemma Asap7CoversAllParams(firstId: NodeId, p: MosParams)
    ensures MosModule(Asap7Modules(firstId), p).Ok?
    ensures MosModule(Asap7Modules(firstId), p).value.name == MosTypeStr(p.tp) + "mos_rvt"
    ensures MosModule(Asap7Modules(firstId), p).value.domain == "asap7"
  {
    TypeListed(p.tp);
    RvtListed();
    assert p.vth == STD;
    RvtModuleFound(TypeNames, VtNames, firstId, p);
  }

  /** A sound cache is invisible: looking a parameter set up through it
      gives the call a fresh walker would create. */
  lemma CacheTransparent(table: MosTable, cache: CallCache, p: MosParams)
    requires CacheSound(table, cache)
    ensures MosModuleCall(table, cache, p).Ok? <==> MosModuleCall(table, map[], p).Ok?
    ensures MosModuleCall(table, cache, p).Ok? ==>
      MosModuleCall(table, cache, p).value.0 == MosModuleCall(table, map[], p).value.0
  {
  }

  /** A second lookup of a parameter set, through the cache the first left
      behind, returns the identical call and adds nothing; the cache is keyed
      by value, so any equal parameter set finds it. */
  lemma LookupAgainSharesCall(table: MosTable, cache: CallCache, p: MosParams)
    requires MosModuleCall(table, cache, p).Ok?
    ensures var (c1, cache1) := MosModuleCall(table, cache, p).value;
      MosModuleCall(table, cache1, p) == Ok((c1, cache1))
  {
  }

  /** Lowering a Mos instance from an empty cache, with a table that has
      its key, gives a call of the key's module with the translated
      parameters, and caches that call. */
  lemma LowerMosInstanceWith(table: MosTable, inst: Instance, p: MosParams)
    requires inst.target == Some(IPrimitive(PrimitiveCall(Mos, MosParamsVal(p))))
    requires KeyOf(p) in table
    ensures var call := ExternalModuleCall(table[KeyOf(p)], ModParams(p));
      LowerInstance(table, map[], inst) == Ok((inst.(target := Some(IExternal(call))), map[p := call]))
  {
  }

  /** Lowering a Mos instance with the ASAP7 table from an empty cache gives
      a call of the regular-threshold module of its type, carrying every
      parameter but `vth` unchanged. */
  lemma LowerMosInstance(firstId: NodeId, inst: Instance, p: MosParams)
    requires inst.target == Some(IPrimitive(PrimitiveCall(Mos, MosParamsVal(p))))
    ensures LowerInstance(Asap7Modules(firstId), map[], inst).Ok?
    ensures var inst' := LowerInstance(Asap7Modules(firstId), map[], inst).value.0;
      && inst'.target.Some? && inst'.target.value.IExternal?
      && inst'.target.value.ext.emod.name == MosTypeStr(p.tp) + "mos_rvt"
      && inst'.target.value.ext.params == ModParams(p)
      && "vth" !in inst'.target.value.ext.params
  {
    var table := Asap7Modules(firstId);
    Asap7CoversAllParams(firstId, p);
    LowerMosInstanceWith(table, inst, p);
  }
}

=== FILE: circuit.dfy ===
/**
  The in-memory circuit graph of hdl21: signals and connection expressions,
  parameter values, primitives and external modules with their calls,
  instances, bundles and modules.

  Python object identity is modelled by an explicit `id` on every node the
  source caches or flags by `id()`; two occurrences of a node with the same
  id stand for the same Python object.
 */
module Circuit {
  import opened Common

  type NodeId = nat

  datatype Visibility = INTERNAL | PORT

  datatype PortDir = INPUT | OUTPUT | INOUT | NONE

  /** A named bus of `width` bits; a port when `vis == PORT`. */
  datatype Signal = Signal(name: string, width: nat, vis: Visibility, direction: PortDir)

  /** `Port(name=...)`: a one-bit, direction-less port signal. */
  function Port(name: string): (p: Signal)
    ensures p.name == name && p.vis == PORT
  {
    Signal(name, 1, PORT, NONE)
  }

  /** What an instance port may be connected to. `OtherConn` stands for any
      other Python object found in a connection dict (for instance an
      unresolved port reference). */
  datatype Connectable =
    | Sig(signal: Signal)
    | Slice(of: Signal, top: int, bot: int)
    | Concat(parts: seq<Connectable>)
    | OtherConn(kind: string)

  /** A parameter value as seen by the exporter after `asdict`. Floats are
      carried as opaque values and never computed on. */
  datatype ParamValue =
    | NoneVal
    | IntVal(i: int)
    | FloatVal(f: real)
    | StrVal(s: string)
    | EnumVal(text: string)
    | OtherVal(kind: string)

  datatype MosType = NMOS | PMOS

  datatype MosVth = STD

  /** The `str()` of a Python enum member, which is also what an f-string
      formats it as: the class name, a dot, and the member name. */
  function MosTypeStr(t: MosType): string
  {
    match t
    case NMOS => "MosType.NMOS"
    case PMOS => "MosType.PMOS"
  }

  function MosVthStr(v: MosVth): string
  {
    match v
    case STD => "MosVth.STD"
  }

  datatype MosParams = MosParams(
    w: Option<int>,
    l: Option<int>,
    nser: int,
    npar: int,
    tp: MosType,
    vth: MosVth)

  /** A parameter type: its class name and whether it is a `paramclass`. */
  datatype ParamType = ParamType(name: string, isParamClass: bool)

  const MosParamsType := ParamType("MosParams", true)

  /** A parameter value: a `MosParams`, or an instance of another class with
      its fields in `asdict` form. */
  datatype Params =
    | MosParamsVal(mos: MosParams)
    | OtherParams(cls: ParamType, fields: map<string, ParamValue>)

  /** `type(params)`. */
  function TypeOf(p: Params): ParamType
  {
    match p
    case MosParamsVal(_) => MosParamsType
    case OtherParams(cls, _) => cls
  }

  /** `dataclasses.asdict(params)`: field name to value. Enum-valued fields
      stay enums. */
  function AsDict(p: Params): (d: map<string, ParamValue>)
    ensures p.MosParamsVal? ==> d.Keys == {"w", "l", "nser", "npar", "tp", "vth"}
  {
    match p
    case MosParamsVal(mp) =>
      map[
        "w" := OptionalInt(mp.w),
        "l" := OptionalInt(mp.l),
        "nser" := IntVal(mp.nser),
        "npar" := IntVal(mp.npar),
        "tp" := EnumVal(MosTypeStr(mp.tp)),
        "vth" := EnumVal(MosVthStr(mp.vth))]
    case OtherParams(_, fields) => fields
  }

  function OptionalInt(v: Option<int>): ParamValue
  {
    if v.Some? then IntVal(v.value) else NoneVal
  }

  datatype Primitive = Primitive(name: string, desc: string, portList: seq<Signal>, paramtype: ParamType)

  datatype PrimitiveCall = PrimitiveCall(prim: Primitive, params: Params)

  datatype ExternalModule = ExternalModule(id: NodeId, domain: string, name: string, desc: string, portList: seq<Signal>)

  datatype ExternalModuleCall = ExternalModuleCall(emod: ExternalModule, params: map<string, ParamValue>)

  /** An unexpanded generator call; only its identity matters here. */
  datatype GeneratorCall = GeneratorCall(id: NodeId, generator: string)

  datatype Instantiable =
    | IModule(m: Module)
    | IPrimitive(prim: PrimitiveCall)
    | IExternal(ext: ExternalModuleCall)
    | IGenerator(gen: GeneratorCall)

  /** `target` is `_resolved`: `None` when the instance points nowhere. */
  datatype Instance = Instance(id: NodeId, name: string, target: Option<Instantiable>, conns: map<string, Connectable>)

  datatype InstArray = InstArray(id: NodeId, name: string, target: Option<Instantiable>, n: nat, conns: map<string, Connectable>)

  datatype BundleInstance = BundleInstance(id: NodeId, name: string)

  /** `pymodule` is `_pymodule.__name__`, the Python module that defined it. */
  datatype Module = Module(
    id: NodeId,
    name: string,
    pymodule: string,
    ports: seq<Signal>,
    signals: seq<Signal>,
    instances: seq<Instance>,
    arrays: seq<InstArray>,
    bundles: seq<BundleInstance>,
    interfaces: seq<string>)

  /** What elaboration accepts as its top. */
  datatype Elabable = EModule(m: Module) | EGenerator(gen: GeneratorCall)

  /** The modules an instance target leads to directly. */
  function TargetModules(t: Option<Instantiable>): set<Module>
  {
    if t.Some? && t.value.IModule? then {t.value.m} else {}
  }

  /** The modules `m` instantiates directly, through instances or arrays. */
  function Children(m: Module): set<Module>
  {
    (set i, c | i in m.instances && c in TargetModules(i.target) :: c)
    + (set a, c | a in m.arrays && c in TargetModules(a.target) :: c)
  }

  /** The modules `m` instantiates directly through plain instances: the ones
      the exporter visits. */
  function InstanceChildren(m: Module): set<Module>
  {
    set i, c | i in m.instances && c in TargetModules(i.target) :: c
  }

  /** `U` contains every module instantiated by one of its modules. */
  predicate Closed(U: set<Module>)
  {
    forall k :: k in U ==> Children(k) <= U
  }

  /** Within `U`, an id identifies a module: the ids are Python identities. */
  predicate UniqueIds(U: set<Module>)
  {
    forall a, b :: a in U && b in U && a.id == b.id ==> a == b
  }
}

=== FILE: common.dfy ===
/**
  Shared failure-compatible wrappers and the error kinds raised by the
  elaborator, the protobuf exporter, the primitive library and the ASAP7
  lowering walker. Every Python `raise` of the modelled code becomes one
  `Error` value; `ExceptionClass` records which Python exception it was.
 */
module Common {

  datatype Option<+T> = None | Some(value: T)

  /** The Python exception class an `Error` is raised as. */
  datatype ExceptionClass = TypeErrorClass | RuntimeErrorClass | ValueErrorClass

  datatype Error =
    // Elaborator
    | InvalidTop              // top is not a Module
    | AnonymousModule         // module without a name
    | UndefinedTarget         // instance target unset
    | UnsupportedTarget       // target of a kind the base dispatch does not handle
    | GeneratorCallInPass     // a non-generator pass asked to elaborate a GeneratorCall
    | NoFlatName              // no collision-free flattened name short enough
    // Exporter
    | TopsNotAList
    | TopNotAModule
    | InterfacesUnsupported
    | NameCollision(domain: string, name: string)
    | UnresolvedInstance
    | InvalidParamValue
    | InvalidConnection
    // Primitives
    | NotAParamClass
    | UnnamedPort
    | PortNotVisible
    | InvalidParams
    | InvalidMosValue
    | NoneComparison          // `None <= 0` in a value check
    // ASAP7
    | NoMosModule

  function ClassOf(e: Error): ExceptionClass
  {
    match e
    case InvalidTop | UnsupportedTarget | TopsNotAList | TopNotAModule
      | InvalidParamValue | InvalidConnection | NotAParamClass | InvalidParams
      | NoneComparison => TypeErrorClass
    case UnnamedPort | PortNotVisible | InvalidMosValue => ValueErrorClass
    case _ => RuntimeErrorClass
  }

  datatype Result<+T> = Ok(value: T) | Err(error: Error) {
    predicate IsFailure() {
      Err?
    }

    function PropagateFailure<U>(): Result<U>
      requires Err?
    {
      Err(error)
    }

    function Extract(): T
      requires Ok?
    {
      value
    }
  }

  /** `pre` is a prefix of `s`. */
  predicate IsPrefix<T(==)>(pre: seq<T>, s: seq<T>)
  {
    |pre| <= |s| && s[..|pre|] == pre
  }

  /** A sequence is its prefix followed by the rest. */
  lemma PrefixSplit<T>(pre: seq<T>, s: seq<T>)
    requires IsPrefix(pre, s)
    ensures s == pre + s[|pre|..]
  {
    assert s == s[..|pre|] + s[|pre|..];
  }

  /** Every entry of `m` is still present, unchanged, in `m'`. */
  predicate MapGrows<K, V(==)>(m: map<K, V>, m': map<K, V>)
  {
    forall k :: k in m ==> k in m' && m'[k] == m[k]
  }
}

=== FILE: elaborator.dfy ===
/**
  The base elaborator: a depth-first walk over a module hierarchy that
  caches each module by identity, turns off the pre-elaboration port-reference
  behaviour of every instance, array and bundle it visits, and runs the
  per-pass hooks. A concrete pass is a choice of `Hooks`; the base pass
  uses the identity hooks.

  The walk is a pure function threading a `State`: the module cache, the set
  of nodes whose `_elaborated` flag is set, and a trace of the visits and
  hook invocations in the order they happen.
 */
module Elaborator {
  import opened Common
  import opened Circuit

  datatype Event =
    | InstanceVisited(id: NodeId)
    | ArrayVisited(id: NodeId)
    | BundleVisited(id: NodeId)
    | ModuleHookRan(id: NodeId)
    | PrimitiveHookRan(prim: PrimitiveCall)
    | ExternalHookRan(ext: ExternalModuleCall)

  /** The per-pass extension points: `elaborate_module`,
      `elaborate_primitive_call` and `elaborate_external_module`. */
  datatype Hooks = Hooks(
    onModule: Module -> Module,
    onPrimitive: PrimitiveCall -> PrimitiveCall,
    onExternal: ExternalModuleCall -> ExternalModuleCall)

  /** The base class's hooks, each returning its argument unmodified. */
  function BaseHooks(): Hooks
  {
    Hooks(m => m, c => c, c => c)
  }

  datatype State = State(cache: map<NodeId, Module>, elaborated: set<NodeId>, trace: seq<Event>)

  /** The state of a newly constructed elaborator. */
  function NewState(): State
  {
    State(map[], {}, [])
  }

  /** `st'` is a later state of the same run than `st`. */
  predicate Grows(st: State, st': State)
  {
    && MapGrows(st.cache, st'.cache)
    && st.elaborated <= st'.elaborated
    && IsPrefix(st.trace, st'.trace)
  }

  function InstanceEvents(insts: seq<Instance>): (evs: seq<Event>)
    ensures |evs| == |insts|
  {
    if insts == [] then [] else [InstanceVisited(insts[0].id)] + InstanceEvents(insts[1..])
  }

  function ArrayEvents(arrs: seq<InstArray>): (evs: seq<Event>)
    ensures |evs| == |arrs|
  {
    if arrs == [] then [] else [ArrayVisited(arrs[0].id)] + ArrayEvents(arrs[1..])
  }

  function BundleEvents(bs: seq<BundleInstance>): (evs: seq<Event>)
    ensures |evs| == |bs|
  {
    if bs == [] then [] else [BundleVisited(bs[0].id)] + BundleEvents(bs[1..])
  }

  /** A module target has been elaborated: its result is in the cache. */
  ghost predicate TargetCached(t: Option<Instantiable>, cache: map<NodeId, Module>)
  {
    forall c :: c in TargetModules(t) ==> c.id in cache
  }

  ghost predicate InstanceTargetsCached(insts: seq<Instance>, cache: map<NodeId, Module>)
  {
    forall i :: 0 <= i < |insts| ==> TargetCached(insts[i].target, cache)
  }

  ghost predicate ArrayTargetsCached(arrs: seq<InstArray>, cache: map<NodeId, Module>)
  {
    forall j :: 0 <= j < |arrs| ==> TargetCached(arrs[j].target, cache)
  }

  /** `evs` splits into consecutive blocks, one per element of `heads`, the
      k-th block starting with `heads[k]`. */
  ghost predicate Blocks(evs: seq<Event>, heads: seq<Event>)
    decreases |heads|
  {
    if |heads| == 0 then evs == []
    else
      && 0 < |evs|
      && evs[0] == heads[0]
      && exists n :: 1 <= n <= |evs| && Blocks(evs[n..], heads[1..])
  }

  /** The events a fresh module adds to the trace: one block per instance in
      order (its visit, then whatever its target adds), then one block per
      array, then the bundle visits, and only then the module hook. */
  ghost predicate ChildrenBeforeHook(m: Module, before: seq<Event>, after: seq<Event>)
  {
    exists a, b ::
      && Blocks(a, InstanceEvents(m.instances))
      && Blocks(b, ArrayEvents(m.arrays))
      && after == before + a + b + BundleEvents(m.bundles) + [ModuleHookRan(m.id)]
  }

  /** The ids of the instances, arrays and bundles declared directly in `m`. */
  function ChildNodeIds(m: Module): set<NodeId>
  {
    (set i | i in m.instances :: i.id)
    + (set a | a in m.arrays :: a.id)
    + (set b | b in m.bundles :: b.id)
  }

  /** `elaborate_module_base`. A cache hit returns the module passed in, not
      the cached hook result. */
  function ElabModuleBase(h: Hooks, m: Module, st: State): (r: Result<(Module, State)>)
    decreases m, 1
    ensures r.Ok? ==> Grows(st, r.value.1) && m.id in r.value.1.cache
    ensures m.id in st.cache ==> r == Ok((m, st))
    ensures m.id !in st.cache && m.name == "" ==> r == Err(AnonymousModule)
    ensures m.id !in st.cache && r.Ok? ==>
      && r.value.0 == h.onModule(m)
      && r.value.1.cache[m.id] == h.onModule(m)
      && ChildNodeIds(m) <= r.value.1.elaborated
    ensures r.Err? ==> r.error in {AnonymousModule, UndefinedTarget, UnsupportedTarget}
  {
    if m.id in st.cache then Ok((m, st))
    else if m.name == "" then Err(AnonymousModule)
    else
      var st1 :- ElabInstances(h, m.instances, st);
      var st2 :- ElabArrays(h, m.arrays, st1);
      var st3 := ElabBundles(m.bundles, st2);
      var result := h.onModule(m);
      var st4 := State(st3.cache[m.id := result], st3.elaborated, st3.trace + [ModuleHookRan(m.id)]);
      Ok((result, st4))
  }

  /** The order of `elaborate_module_base` on a fresh module: the instance
      blocks, then the array blocks, then the bundle visits, and only then
      the module hook. */
  lemma ModuleTraceOrdered(h: Hooks, m: Module, st: State)
    requires m.id !in st.cache && ElabModuleBase(h, m, st).Ok?
    ensures ChildrenBeforeHook(m, st.trace, ElabModuleBase(h, m, st).value.1.trace)
  {
    var st1 := ElabInstances(h, m.instances, st).value;
    var st2 := ElabArrays(h, m.arrays, st1).value;
    var st3 := ElabBundles(m.bundles, st2);
    assert ElabModuleBase(h, m, st).value.1.trace == st3.trace + [ModuleHookRan(m.id)];
    TraceSplits(m, st.trace, st1.trace, st2.trace, ElabModuleBase(h, m, st).value.1.trace);
  }

  /** The sequence reasoning of `ModuleTraceOrdered`, on the traces alone. */
  lemma TraceSplits(m: Module, t0: seq<Event>, t1: seq<Event>, t2: seq<Event>, t: seq<Event>)
    requires IsPrefix(t0, t1) && Blocks(t1[|t0|..], InstanceEvents(m.instances))
    requires IsPrefix(t1, t2) && Blocks(t2[|t1|..], ArrayEvents(m.arrays))
    requires t == t2 + BundleEvents(m.bundles) + [ModuleHookRan(m.id)]
    ensures ChildrenBeforeHook(m, t0, t)
  {
    var a, b := t1[|t0|..], t2[|t1|..];
    PrefixSplit(t0, t1);
    PrefixSplit(t1, t2);
    assert t == t0 + a + b + BundleEvents(m.bundles) + [ModuleHookRan(m.id)];
  }

  function ElabInstances(h: Hooks, insts: seq<Instance>, st: State): (r: Result<State>)
    decreases insts
    ensures r.Ok? ==> Grows(st, r.value)
    ensures r.Ok? ==> forall i :: i in insts ==> i.id in r.value.elaborated
    ensures r.Ok? ==> Blocks(r.value.trace[|st.trace|..], InstanceEvents(insts))
    ensures r.Ok? ==> InstanceTargetsCached(insts, r.value.cache)
    ensures r.Err? ==> r.error in {AnonymousModule, UndefinedTarget, UnsupportedTarget}
  {
    if insts == [] then Ok(st)
    else
      var (_, st1) :- ElabInstance(h, insts[0], st);
      var st2 :- ElabInstances(h, insts[1..], st1);
      var evs := st2.trace[|st.trace|..];
      var n := |st1.trace| - |st.trace|;
      assert evs[n..] == st2.trace[|st1.trace|..];
      Ok(st2)
  }

  /** `elaborate_instance`: set the flag, then visit the target. */
  function ElabInstance(h: Hooks, inst: Instance, st: State): (r: Result<(Instantiable, State)>)
    decreases inst, 1
    ensures r.Ok? ==> Grows(st, r.value.1) && inst.id in r.value.1.elaborated
    ensures r.Ok? ==> |st.trace| < |r.value.1.trace| && r.value.1.trace[|st.trace|] == InstanceVisited(inst.id)
    ensures r.Ok? ==> TargetCached(inst.target, r.value.1.cache)
    ensures r.Err? ==> r.error in {AnonymousModule, UndefinedTarget, UnsupportedTarget}
  {
    var st1 := st.(elaborated := st.elaborated + {inst.id}, trace := st.trace + [InstanceVisited(inst.id)]);
    ElabInstantiable(h, inst.target, st1)
  }

  function ElabArrays(h: Hooks, arrs: seq<InstArray>, st: State): (r: Result<State>)
    decreases arrs
    ensures r.Ok? ==> Grows(st, r.value)
    ensures r.Ok? ==> forall a :: a in arrs ==> a.id in r.value.elaborated
    ensures r.Ok? ==> Blocks(r.value.trace[|st.trace|..], ArrayEvents(arrs))
    ensures r.Ok? ==> ArrayTargetsCached(arrs, r.value.cache)
    ensures r.Err? ==> r.error in {AnonymousModule, UndefinedTarget, UnsupportedTarget}
  {
    if arrs == [] then Ok(st)
    else
      var (_, st1) :- ElabInstanceArray(h, arrs[0], st);
      var st2 :- ElabArrays(h, arrs[1..], st1);
      var evs := st2.trace[|st.trace|..];
      var n := |st1.trace| - |st.trace|;
      assert evs[n..] == st2.trace[|st1.trace|..];
      Ok(st2)
  }

  /** `elaborate_instance_array`: the single resolved target is elaborated
      once, whatever the array's replication count. */
  function ElabInstanceArray(h: Hooks, arr: InstArray, st: State): (r: Result<(Instantiable, State)>)
    decreases arr, 1
    ensures r.Ok? ==> Grows(st, r.value.1) && arr.id in r.value.1.elaborated
    ensures r.Ok? ==> |st.trace| < |r.value.1.trace| && r.value.1.trace[|st.trace|] == ArrayVisited(arr.id)
    ensures r.Ok? ==> TargetCached(arr.target, r.value.1.cache)
    ensures r.Err? ==> r.error in {AnonymousModule, UndefinedTarget, UnsupportedTarget}
  {
    var st1 := st.(elaborated := st.elaborated + {arr.id}, trace := st.trace + [ArrayVisited(arr.id)]);
    ElabInstantiable(h, arr.target, st1)
  }

  /** `elaborate_bundle_instance` over each bundle: set the flag only. */
  function ElabBundles(bs: seq<BundleInstance>, st: State): (st': State)
    ensures st'.cache == st.cache
    ensures st.elaborated <= st'.elaborated
    ensures forall b :: b in bs ==> b.id in st'.elaborated
    ensures st'.elaborated == st.elaborated + BundleIds(bs)
    ensures st'.trace == st.trace + BundleEvents(bs)
  {
    if bs == [] then st
    else
      BundleIdsCover(bs);
      ElabBundles(bs[1..], st.(elaborated := st.elaborated + {bs[0].id}, trace := st.trace + [BundleVisited(bs[0].id)]))
  }

  /** The ids of the bundle instances `bs`. */
  ghost function BundleIds(bs: seq<BundleInstance>): set<NodeId>
  {
    if bs == [] then {} else {bs[0].id} + BundleIds(bs[1..])
  }

  /** Every bundle of `bs` has its id in `BundleIds(bs)`. */
  lemma BundleIdsCover(bs: seq<BundleInstance>)
    requires bs != []
    ensures forall b :: b in bs ==> b.id in BundleIds(bs)
  {
    if bs[1..] != [] {
      BundleIdsCover(bs[1..]);
    }
    assert forall b :: b in bs ==> b == bs[0] || b in bs[1..];
  }

  /** `elaborate_instantiable`: dispatch on the kind of target. A generator
      call is none of the three handled kinds and ends in the final
      `TypeError`. */
  function ElabInstantiable(h: Hooks, of: Option<Instantiable>, st: State): (r: Result<(Instantiable, State)>)
    decreases of, 0
    ensures r.Ok? ==> Grows(st, r.value.1)
    ensures of.None? ==> r == Err(UndefinedTarget)
    ensures of.Some? && of.value.IGenerator? ==> r == Err(UnsupportedTarget)
    ensures of.Some? && of.value.IModule? && ElabModuleBase(h, of.value.m, st).Ok? ==>
      var (res, st1) := ElabModuleBase(h, of.value.m, st).value;
      r == Ok((IModule(res), st1))
    ensures of.Some? && of.value.IModule? && ElabModuleBase(h, of.value.m, st).Err? ==>
      r == Err(ElabModuleBase(h, of.value.m, st).error)
    ensures of.Some? && of.value.IPrimitive? ==>
      r == Ok((IPrimitive(h.onPrimitive(of.value.prim)), st.(trace := st.trace + [PrimitiveHookRan(of.value.prim)])))
    ensures of.Some? && of.value.IExternal? ==>
      r == Ok((IExternal(h.onExternal(of.value.ext)), st.(trace := st.trace + [ExternalHookRan(of.value.ext)])))
    ensures r.Err? ==> r.error in {AnonymousModule, UndefinedTarget, UnsupportedTarget}
  {
    match of
    case None => Err(UndefinedTarget)
    case Some(IModule(m)) =>
      var (res, st1) :- ElabModuleBase(h, m, st);
      Ok((IModule(res), st1))
    case Some(IPrimitive(c)) =>
      Ok((IPrimitive(h.onPrimitive(c)), st.(trace := st.trace + [PrimitiveHookRan(c)])))
    case Some(IExternal(c)) =>
      Ok((IExternal(h.onExternal(c)), st.(trace := st.trace + [ExternalHookRan(c)])))
    case Some(IGenerator(_)) => Err(UnsupportedTarget)
  }

  /** `elaborate_generator_call`: only the generator pass handles these. */
  function ElabGeneratorCall(call: GeneratorCall): (r: Result<Module>)
    ensures r.Err? && ClassOf(r.error) == RuntimeErrorClass
  {
    Err(GeneratorCallInPass)
  }

  /** `elaborate_top`. */
  function ElaborateTop(h: Hooks, top: Elabable, st: State): (r: Result<(Module, State)>)
    ensures top.EGenerator? ==> r == Err(InvalidTop)
    ensures top.EModule? ==> r == ElabModuleBase(h, top.m, st)
  {
    match top
    case EModule(m) => ElabModuleBase(h, m, st)
    case EGenerator(_) => Err(InvalidTop)
  }

  /** `Elaborator.elaborate`: a fresh elaborator run on `top`. */
  function Elaborate(h: Hooks, top: Elabable): (r: Result<Module>)
    ensures top.EGenerator? ==> r == Err(InvalidTop)
    ensures top.EModule? && top.m.name == "" ==> r == Err(AnonymousModule)
    ensures top.EModule? && r.Ok? ==> r.value == h.onModule(top.m)
  {
    var (m, _) :- ElaborateTop(h, top, NewState());
    Ok(m)
  }
}

=== FILE: elaborator_props.dfy ===
/**
  What the base elaborator accepts, stated independently of the walk: a
  module elaborates exactly when it is named and every instance and array
  below it points at a module that elaborates, a primitive call or an
  external module call. Success needs the identity model to be faithful:
  distinct modules carry distinct ids.
 */
module ElaboratorProps {
  import opened Common
  import opened Circuit
  import opened Elaborator

  /** The reference definition of an elaboratable module. */
  predicate Elaborable(m: Module)
    decreases m, 1
  {
    && m.name != ""
    && (forall i :: 0 <= i < |m.instances| ==> TargetElaborable(m.instances[i].target))
    && (forall j :: 0 <= j < |m.arrays| ==> TargetElaborable(m.arrays[j].target))
  }

  predicate TargetElaborable(t: Option<Instantiable>)
    decreases t, 0
  {
    match t
    case None => false
    case Some(IModule(c)) => Elaborable(c)
    case Some(IGenerator(_)) => false
    case Some(_) => true
  }

  /** Every id in the cache belongs to an elaboratable module of `U`. */
  predicate CacheGood(cache: map<NodeId, Module>, U: set<Module>)
  {
    forall id :: id in cache ==> exists k :: k in U && k.id == id && Elaborable(k)
  }

  // Completeness: an elaboratable module elaborates, from any state.

  lemma {:induction false} ModuleComplete(h: Hooks, m: Module, st: State)
    requires Elaborable(m)
    ensures ElabModuleBase(h, m, st).Ok?
    decreases m, 1
  {
    if m.id !in st.cache {
      InstancesComplete(h, m.instances, st);
      var st1 := ElabInstances(h, m.instances, st).value;
      ArraysComplete(h, m.arrays, st1);
    }
  }

  lemma {:induction false} InstancesComplete(h: Hooks, insts: seq<Instance>, st: State)
    requires forall i :: 0 <= i < |insts| ==> TargetElaborable(insts[i].target)
    ensures ElabInstances(h, insts, st).Ok?
    decreases insts, 0
  {
    if insts != [] {
      var inst := insts[0];
      TargetComplete(h, inst.target, st.(elaborated := st.elaborated + {inst.id}, trace := st.trace + [InstanceVisited(inst.id)]));
      var st1 := ElabInstance(h, inst, st).value.1;
      assert forall i :: 1 <= i < |insts| ==> insts[1..][i - 1] == insts[i];
      InstancesComplete(h, insts[1..], st1);
    }
  }

  lemma {:induction false} ArraysComplete(h: Hooks, arrs: seq<InstArray>, st: State)
    requires forall j :: 0 <= j < |arrs| ==> TargetElaborable(arrs[j].target)
    ensures ElabArrays(h, arrs, st).Ok?
    decreases arrs, 0
  {
    if arrs != [] {
      var arr := arrs[0];
      TargetComplete(h, arr.target, st.(elaborated := st.elaborated + {arr.id}, trace := st.trace + [ArrayVisited(arr.id)]));
      var st1 := ElabInstanceArray(h, arr, st).value.1;
      assert forall j :: 1 <= j < |arrs| ==> arrs[1..][j - 1] == arrs[j];
      ArraysComplete(h, arrs[1..], st1);
    }
  }

  lemma {:induction false} TargetComplete(h: Hooks, t: Option<Instantiable>, st: State)
    requires TargetElaborable(t)
    ensures ElabInstantiable(h, t, st).Ok?
    decreases t, 0
  {
    if t.Some? && t.value.IModule? {
      ModuleComplete(h, t.value.m, st);
    }
  }

  // Soundness: a successful elaboration only passes through elaboratable
  // modules, provided ids are faithful.

  lemma {:induction false} ModuleSound(h: Hooks, m: Module, st: State, U: set<Module>)
    requires m in U && Closed(U) && UniqueIds(U) && CacheGood(st.cache, U)
    requires ElabModuleBase(h, m, st).Ok?
    ensures Elaborable(m)
    ensures CacheGood(ElabModuleBase(h, m, st).value.1.cache, U)
    decreases m, 1
  {
    if m.id in st.cache {
      var k :| k in U && k.id == m.id && Elaborable(k);
      assert k == m;
    } else {
      assert forall i, c :: 0 <= i < |m.instances| && c in TargetModules(m.instances[i].target) ==> c in U by {
        forall i, c | 0 <= i < |m.instances| && c in TargetModules(m.instances[i].target)
          ensures c in U
        {
          assert m.instances[i] in m.instances;
          assert c in Children(m);
        }
      }
      assert forall j, c :: 0 <= j < |m.arrays| && c in TargetModules(m.arrays[j].target) ==> c in U by {
        forall j, c | 0 <= j < |m.arrays| && c in TargetModules(m.arrays[j].target)
          ensures c in U
        {
          assert m.arrays[j] in m.arrays;
          assert c in Children(m);
        }
      }
      InstancesSound(h, m.instances, st, U);
      var st1 := ElabInstances(h, m.instances, st).value;
      ArraysSound(h, m.arrays, st1, U);
      var st2 := ElabArrays(h, m.arrays, st1).value;
      var st3 := ElabBundles(m.bundles, st2);
      var cache' := ElabModuleBase(h, m, st).value.1.cache;
      assert cache' == st3.cache[m.id := h.onModule(m)];
      assert Elaborable(m);
      forall id | id in cache'
        ensures exists k :: k in U && k.id == id && Elaborable(k)
      {
        if id == m.id {
          assert m in U && m.id == id && Elaborable(m);
        } else {
          assert id in st2.cache;
        }
      }
    }
  }

  lemma {:induction false} InstancesSound(h: Hooks, insts: seq<Instance>, st: State, U: set<Module>)
    requires forall i, c :: 0 <= i < |insts| && c in TargetModules(insts[i].target) ==> c in U
    requires Closed(U) && UniqueIds(U) && CacheGood(st.cache, U)
    requires ElabInstances(h, insts, st).Ok?
    ensures forall i :: 0 <= i < |insts| ==> TargetElaborable(insts[i].target)
    ensures CacheGood(ElabInstances(h, insts, st).value.cache, U)
    decreases insts, 0
  {
    if insts != [] {
      var inst := insts[0];
      var st0 := st.(elaborated := st.elaborated + {inst.id}, trace := st.trace + [InstanceVisited(inst.id)]);
      TargetSound(h, inst.target, st0, U);
      var st1 := ElabInstance(h, inst, st).value.1;
      assert forall i :: 1 <= i < |insts| ==> insts[1..][i - 1] == insts[i];
      InstancesSound(h, insts[1..], st1, U);
    }
  }

  lemma {:induction false} ArraysSound(h: Hooks, arrs: seq<InstArray>, st: State, U: set<Module>)
    requires forall j, c :: 0 <= j < |arrs| && c in TargetModules(arrs[j].target) ==> c in U
    requires Closed(U) && UniqueIds(U) && CacheGood(st.cache, U)
    requires ElabArrays(h, arrs, st).Ok?
    ensures forall j :: 0 <= j < |arrs| ==> TargetElaborable(arrs[j].target)
    ensures CacheGood(ElabArrays(h, arrs, st).value.cache, U)
    decreases arrs, 0
  {
    if arrs != [] {
      var arr := arrs[0];
      var st0 := st.(elaborated := st.elaborated + {arr.id}, trace := st.trace + [ArrayVisited(arr.id)]);
      TargetSound(h, arr.target, st0, U);
      var st1 := ElabInstanceArray(h, arr, st).value.1;
      assert forall j :: 1 <= j < |arrs| ==> arrs[1..][j - 1] == arrs[j];
      ArraysSound(h, arrs[1..], st1, U);
    }
  }

  lemma {:induction false} TargetSound(h: Hooks, t: Option<Instantiable>, st: State, U: set<Module>)
    requires TargetModules(t) <= U && Closed(U) && UniqueIds(U) && CacheGood(st.cache, U)
    requires ElabInstantiable(h, t, st).Ok?
    ensures TargetElaborable(t)
    ensures CacheGood(ElabInstantiable(h, t, st).value.1.cache, U)
    decreases t, 0
  {
    if t.Some? && t.value.IModule? {
      assert t.value.m in TargetModules(t);
      ModuleSound(h, t.value.m, st, U);
    }
  }

  /** A fresh elaboration of a module succeeds exactly when the module is
      elaboratable, for every pass. */
  lemma ElaborateSucceedsIff(h: Hooks, m: Module, U: set<Module>)
    requires m in U && Closed(U) && UniqueIds(U)
    ensures Elaborate(h, EModule(m)).Ok? <==> Elaborable(m)
  {
    if Elaborable(m) {
      ModuleComplete(h, m, NewState());
    }
    if ElabModuleBase(h, m, NewState()).Ok? {
      ModuleSound(h, m, NewState(), U);
    }
  }

  /** The base pass changes nothing: an elaboratable module elaborates to
      itself. */
  lemma BaseElaborationIsIdentity(m: Module)
    requires Elaborable(m)
    ensures Elaborate(BaseHooks(), EModule(m)) == Ok(m)
  {
    ModuleComplete(BaseHooks(), m, NewState());
  }

  /** Elaborating a module a second time in the same run is a cache hit:
      the module comes back as given and the state does not change. */
  lemma ElaborationIdempotent(h: Hooks, m: Module, st: State)
    requires ElabModuleBase(h, m, st).Ok?
    ensures var st' := ElabModuleBase(h, m, st).value.1;
      ElabModuleBase(h, m, st') == Ok((m, st'))
  {
  }

  /** With faithful ids, the cache cannot hide an error. Without them it
      can: a second, anonymous module sharing its id with an elaborated
      sibling is taken for it and skipped. */
  lemma SharedIdMasksAnonymousModule()
    ensures var good := Module(7, "Leaf", "lib", [], [], [], [], [], []);
      var bad := Module(7, "", "lib", [], [], [], [], [], []);
      var top := Module(1, "Top", "lib", [], [],
        [Instance(2, "a", Some(IModule(good)), map[]), Instance(3, "b", Some(IModule(bad)), map[])],
        [], [], []);
      && !Elaborable(top)
      && Elaborate(BaseHooks(), EModule(top)) == Ok(top)
  {
    var good := Module(7, "Leaf", "lib", [], [], [], [], [], []);
    var bad := Module(7, "", "lib", [], [], [], [], [], []);
    var top := Module(1, "Top", "lib", [], [],
      [Instance(2, "a", Some(IModule(good)), map[]), Instance(3, "b", Some(IModule(bad)), map[])],
      [], [], []);
    assert !TargetElaborable(top.instances[1].target);
  }

  /** A cache hit returns the module it is given, not the hook's result
      stored for it: a pass whose hook builds a new module hands that result
      to the first instance only. */
  lemma CacheHitIgnoresHookResult()
    ensures var leaf := Module(5, "Leaf", "lib", [], [], [], [], [], []);
      var h := Hooks((m: Module) => m.(name := m.name + "_x"), c => c, c => c);
      var first := ElabModuleBase(h, leaf, NewState());
      && first.Ok? && first.value.0.name == "Leaf_x"
      && ElabModuleBase(h, leaf, first.value.1) == Ok((leaf, first.value.1))
      && first.value.1.cache[leaf.id].name == "Leaf_x"
  {
  }
}

=== FILE: exporter.dfy ===
/**
  The hierarchical protobuf exporter: `to_proto` and `ProtoExporter`.
  Modules are exported depth-first, memoized by identity, named by
  (package domain, defining Python module + "." + module name), and appended
  to the package only after everything they instantiate.
 */
module Exporter {
  import opened Common
  import opened Circuit
  import opened Proto

  /** What `to_proto` is given: one elaboratable, or a list of them. */
  datatype TopArg = One(top: Elabable) | Many(tops: seq<Elabable>)

  /** The exporter's state. `modules`, `moduleNames` and `extModules` are its
      three dictionaries; `order` is the insertion order of `modules`, which
      a Python dict keeps. */
  datatype ExportState = ExportState(
    modules: map<NodeId, PModule>,
    order: seq<NodeId>,
    moduleNames: map<QualifiedName, PModule>,
    extModules: map<NodeId, PExternalModule>,
    pkg: Package)

  /** `domain or ""`. */
  function PackageName(domain: Option<string>): (name: string)
    ensures domain.None? ==> name == ""
    ensures domain.Some? ==> name == domain.value
  {
    if domain.Some? then domain.value else ""
  }

  function NewExportState(domain: Option<string>): ExportState
  {
    ExportState(map[], [], map[], map[], Package(PackageName(domain), [], []))
  }

  /** `st'` is a later state of the same export run than `st`. */
  predicate Grows(st: ExportState, st': ExportState)
  {
    && MapGrows(st.modules, st'.modules)
    && MapGrows(st.moduleNames, st'.moduleNames)
    && MapGrows(st.extModules, st'.extModules)
    && IsPrefix(st.order, st'.order)
    && st'.pkg.name == st.pkg.name
    && IsPrefix(st.pkg.modules, st'.pkg.modules)
    && IsPrefix(st.pkg.extModules, st'.pkg.extModules)
  }

  /** The qualified name a module is exported under within package `pkgName`. */
  function QualName(pkgName: string, m: Module): QualifiedName
  {
    QualifiedName(pkgName, m.pymodule + "." + m.name)
  }

  /** `to_proto`'s wrapping of a single top into a list. */
  function WrapTops(top: TopArg): (tops: seq<Elabable>)
    ensures top.One? ==> tops == [top.top]
    ensures top.Many? ==> tops == top.tops
  {
    match top
    case One(t) => [t]
    case Many(ts) => ts
  }

  /** `to_proto`: wrap, elaborate each top with `elab`, then export. */
  function ToProto(top: TopArg, domain: Option<string>, elab: Elabable -> Result<Module>): (r: Result<Package>)
    ensures (exists i :: 0 <= i < |WrapTops(top)| && elab(WrapTops(top)[i]).Err?) ==> r.Err?
    ensures r.Ok? ==> r.value.name == PackageName(domain)
  {
    var mods :- ElabAll(WrapTops(top), elab);
    Export(Many(seq(|mods|, i requires 0 <= i < |mods| => EModule(mods[i]))), domain)
  }

  function ElabAll(tops: seq<Elabable>, elab: Elabable -> Result<Module>): (r: Result<seq<Module>>)
    ensures r.Ok? <==> forall i :: 0 <= i < |tops| ==> elab(tops[i]).Ok?
    ensures r.Ok? ==> |r.value| == |tops|
    ensures r.Ok? ==> forall i :: 0 <= i < |tops| ==> elab(tops[i]) == Ok(r.value[i])
  {
    if tops == [] then Ok([])
    else
      var m :- elab(tops[0]);
      var rest :- ElabAll(tops[1..], elab);
      assert forall i :: 1 <= i < |tops| ==> tops[i] == tops[1..][i - 1];
      Ok([m] + rest)
  }

  /** `ProtoExporter(tops, domain).export()`. */
  function Export(tops: TopArg, domain: Option<string>): (r: Result<Package>)
    ensures tops.One? ==> r == Err(TopsNotAList)
    ensures r.Ok? ==> r.value.name == PackageName(domain)
  {
    match tops
    case One(_) => Err(TopsNotAList)
    case Many(ts) =>
      var st :- ExportTops(ts, NewExportState(domain));
      Ok(st.pkg)
  }

  /** The loop over the tops, in order. */
  function ExportTops(tops: seq<Elabable>, st: ExportState): (r: Result<ExportState>)
    ensures r.Ok? ==> Grows(st, r.value)
    ensures r.Ok? ==> forall i :: 0 <= i < |tops| ==> tops[i].EModule? && tops[i].m.id in r.value.modules
    ensures (exists i :: 0 <= i < |tops| && tops[i].EGenerator?) ==> r.Err?
  {
    if tops == [] then Ok(st)
    else
      match tops[0]
      case EGenerator(_) => Err(TopNotAModule)
      case EModule(m) =>
        var (_, st1) :- ExportModule(m, st);
        var st2 :- ExportTops(tops[1..], st1);
        assert m.id in st2.modules;
        assert forall i :: 1 <= i < |tops| ==> tops[i] == tops[1..][i - 1];
        Ok(st2)
  }

  /** `export_module_name`: the qualified name, unless it is already taken. */
  function ExportModuleName(m: Module, st: ExportState): (r: Result<QualifiedName>)
    ensures r.Ok? <==> QualName(st.pkg.name, m) !in st.moduleNames
    ensures r.Ok? ==> r.value == QualName(st.pkg.name, m)
    ensures r.Err? ==> r.error == NameCollision(st.pkg.name, m.pymodule + "." + m.name)
  {
    var qn := QualifiedName(st.pkg.name, m.pymodule + "." + m.name);
    if qn in st.moduleNames then Err(NameCollision(qn.domain, qn.name)) else Ok(qn)
  }

  /** Record a freshly exported module in the caches and the package. */
  function Record(st: ExportState, id: NodeId, pm: PModule): ExportState
  {
    st.(
      modules := st.modules[id := pm],
      order := if id in st.modules then st.order else st.order + [id],
      moduleNames := st.moduleNames[pm.name := pm],
      pkg := st.pkg.(modules := st.pkg.modules + [pm]))
  }

  /** `pi` is the wire form of `inst` in a run whose state `st` holds the
      export of its target: the same name, a reference to the target's
      definition, the target's parameters encoded (none for a module), and
      every connection translated. */
  predicate InstanceExported(inst: Instance, pi: PInstance, st: ExportState)
  {
    && inst.target.Some?
    && pi.name == inst.name
    && ExportConnections(inst.conns) == Ok(pi.connections)
    && match inst.target.value
       case IModule(c) =>
         c.id in st.modules && pi.ref == st.modules[c.id].name && pi.parameters == map[]
       case IPrimitive(call) =>
         && pi.ref == QualifiedName("hdl21.primitives", call.prim.name)
         && ExportParams(AsDict(call.params)) == Ok(pi.parameters)
       case IExternal(call) =>
         && call.emod.id in st.extModules
         && pi.ref == QualifiedName("", call.emod.name)
         && ExportParams(call.params) == Ok(pi.parameters)
       case IGenerator(_) => false
  }

  /** A later state of the run still holds what an exported instance refers to. */
  lemma InstanceExportedGrows(inst: Instance, pi: PInstance, st: ExportState, st': ExportState)
    requires InstanceExported(inst, pi, st) && Grows(st, st')
    ensures InstanceExported(inst, pi, st')
  {
  }

  /** `export_module`. The name check happens before the instances are
      exported; the name is recorded only after them. */
  function ExportModule(m: Module, st: ExportState): (r: Result<(PModule, ExportState)>)
    decreases m, 2
    ensures r.Ok? ==> Grows(st, r.value.1)
    ensures r.Ok? ==> m.id in r.value.1.modules && r.value.1.modules[m.id] == r.value.0
    ensures m.id in st.modules ==> r == Ok((st.modules[m.id], st))
    ensures m.id !in st.modules && |m.interfaces| > 0 ==> r == Err(InterfacesUnsupported)
    ensures m.id !in st.modules && |m.interfaces| == 0 && QualName(st.pkg.name, m) in st.moduleNames ==>
      r == Err(NameCollision(st.pkg.name, m.pymodule + "." + m.name))
    ensures m.id !in st.modules && r.Ok? ==>
      && QualName(st.pkg.name, m) !in st.moduleNames
      && r.value.0.name == QualName(st.pkg.name, m)
      && r.value.0.name in r.value.1.moduleNames
      && r.value.1.moduleNames[r.value.0.name] == r.value.0
      && r.value.0.ports == ExportPorts(m.ports)
      && r.value.0.signals == ExportSignals(m.signals)
      && ExportInstances(m.instances, st).Ok?
      && r.value.0.instances == ExportInstances(m.instances, st).value.0
      && 0 < |r.value.1.pkg.modules| && r.value.1.pkg.modules[|r.value.1.pkg.modules| - 1] == r.value.0
      && (forall c :: c in InstanceChildren(m) ==> c.id in r.value.1.modules)
  {
    if m.id in st.modules then Ok((st.modules[m.id], st))
    else if |m.interfaces| > 0 then Err(InterfacesUnsupported)
    else
      var qn :- ExportModuleName(m, st);
      var (insts, st1) :- ExportInstances(m.instances, st);
      var pm := PModule(qn, ExportPorts(m.ports), ExportSignals(m.signals), insts);
      Ok((pm, Record(st1, m.id, pm)))
  }

  /** The instance loop of `export_module`: each instance must be resolved. */
  function ExportInstances(insts: seq<Instance>, st: ExportState): (r: Result<(seq<PInstance>, ExportState)>)
    decreases insts
    ensures r.Ok? ==> Grows(st, r.value.1) && |r.value.0| == |insts|
    ensures r.Ok? ==> forall i :: 0 <= i < |insts| ==> insts[i].target.Some? && r.value.0[i].name == insts[i].name
    ensures r.Ok? ==> forall i, c :: 0 <= i < |insts| && c in TargetModules(insts[i].target) ==> c.id in r.value.1.modules
    ensures r.Ok? ==> forall i :: 0 <= i < |insts| ==> InstanceExported(insts[i], r.value.0[i], r.value.1)
    ensures (exists i :: 0 <= i < |insts| && insts[i].target.None?) ==> r.Err?
  {
    if insts == [] then Ok(([], st))
    else if insts[0].target.None? then Err(UnresolvedInstance)
    else
      var (pi, st1) :- ExportInstance(insts[0], st);
      var (rest, st2) :- ExportInstances(insts[1..], st1);
      InstancesConsExported(insts, pi, rest, st1, st2);
      Ok(([pi] + rest, st2))
  }

  /** One step of the instance loop: the first instance, exported into
      `st1`, followed by the others, exported from there into `st2`. */
  lemma InstancesConsExported(insts: seq<Instance>, pi: PInstance, rest: seq<PInstance>, st1: ExportState, st2: ExportState)
    requires |insts| > 0 && InstanceExported(insts[0], pi, st1) && Grows(st1, st2)
    requires |rest| == |insts| - 1
    requires forall i :: 0 <= i < |rest| ==> InstanceExported(insts[1..][i], rest[i], st2)
    ensures forall i :: 0 <= i < |insts| ==> insts[i].target.Some? && ([pi] + rest)[i].name == insts[i].name
    ensures forall i, c :: 0 <= i < |insts| && c in TargetModules(insts[i].target) ==> c.id in st2.modules
    ensures forall i :: 0 <= i < |insts| ==> InstanceExported(insts[i], ([pi] + rest)[i], st2)
  {
    InstanceExportedGrows(insts[0], pi, st1, st2);
    forall i | 0 <= i < |insts|
      ensures InstanceExported(insts[i], ([pi] + rest)[i], st2)
    {
      if i > 0 {
        assert insts[i] == insts[1..][i - 1];
      }
    }
  }

  /** `export_instance`: the reference to the target, its parameters, then
      its connections. */
  function ExportInstance(inst: Instance, st: ExportState): (r: Result<(PInstance, ExportState)>)
    decreases inst, 1
    ensures r.Ok? ==> Grows(st, r.value.1) && r.value.0.name == inst.name
    ensures r.Ok? ==> forall c :: c in TargetModules(inst.target) ==> c.id in r.value.1.modules
    ensures r.Ok? && inst.target.Some? && inst.target.value.IModule? ==>
      r.value.0.ref == r.value.1.modules[inst.target.value.m.id].name
    ensures r.Ok? && inst.target.Some? && inst.target.value.IPrimitive? ==>
      && r.value.0.ref == QualifiedName("hdl21.primitives", inst.target.value.prim.prim.name)
      && r.value.1 == st
    ensures r.Ok? && inst.target.Some? && inst.target.value.IExternal? ==>
      && r.value.0.ref == QualifiedName("", inst.target.value.ext.emod.name)
      && inst.target.value.ext.emod.id in r.value.1.extModules
    ensures r.Ok? ==> r.value.0.connections.Keys == inst.conns.Keys
    ensures r.Ok? ==> InstanceExported(inst, r.value.0, r.value.1)
    ensures inst.target.None? || inst.target.value.IGenerator? ==> r == Err(UnsupportedTarget)
    ensures inst.target.Some? && inst.target.value.IPrimitive? && ExportParams(AsDict(inst.target.value.prim.params)).Err? ==>
      r == Err(InvalidParamValue)
    ensures inst.target.Some? && inst.target.value.IExternal? && ExportParams(inst.target.value.ext.params).Err? ==>
      r == Err(InvalidParamValue)
    ensures ExportConnections(inst.conns).Err? ==> r.Err?
  {
    match inst.target
    case Some(IModule(c)) =>
      var (pm, st1) :- ExportModule(c, st);
      var conns :- ExportConnections(inst.conns);
      Ok((PInstance(inst.name, pm.name, map[], conns), st1))
    case Some(IPrimitive(call)) =>
      var params :- ExportParams(AsDict(call.params));
      var conns :- ExportConnections(inst.conns);
      Ok((PInstance(inst.name, QualifiedName("hdl21.primitives", call.prim.name), params, conns), st))
    case Some(IExternal(call)) =>
      var (_, st1) := ExportExternalModule(call.emod, st);
      var params :- ExportParams(call.params);
      var conns :- ExportConnections(inst.conns);
      Ok((PInstance(inst.name, QualifiedName("", call.emod.name), params, conns), st1))
    case _ => Err(UnsupportedTarget)
  }

  /** `export_external_module`, memoized by identity; kept apart from the
      dependency-ordered module list. */
  function ExportExternalModule(em: ExternalModule, st: ExportState): (r: (PExternalModule, ExportState))
    ensures Grows(st, r.1)
    ensures r.1.modules == st.modules && r.1.order == st.order && r.1.pkg.modules == st.pkg.modules
    ensures em.id in r.1.extModules && r.1.extModules[em.id] == r.0
    ensures em.id in st.extModules ==> r == (st.extModules[em.id], st)
    ensures em.id !in st.extModules ==>
      && r.0 == PExternalModule(em.name, ExportPorts(em.portList))
      && r.1.pkg.extModules == st.pkg.extModules + [r.0]
  {
    if em.id in st.extModules then (st.extModules[em.id], st)
    else
      var pm := PExternalModule(em.name, ExportPorts(em.portList));
      (pm, st.(extModules := st.extModules[em.id := pm], pkg := st.pkg.(extModules := st.pkg.extModules + [pm])))
  }

  /** `export_port_dir`: total over the four directions, and undone by
      `ImportPortDir`, so no two directions share a wire value. */
  function ExportPortDir(d: PortDir): (r: Direction)
    ensures ImportPortDir(r) == d
  {
    match d
    case INPUT => Direction.INPUT
    case OUTPUT => Direction.OUTPUT
    case INOUT => Direction.INOUT
    case NONE => Direction.NONE
  }

  /** The reverse mapping, from the wire enumeration back to `PortDir`. */
  function ImportPortDir(d: Direction): PortDir
  {
    match d
    case INPUT => PortDir.INPUT
    case OUTPUT => PortDir.OUTPUT
    case INOUT => PortDir.INOUT
    case NONE => PortDir.NONE
  }

  /** `export_port`. */
  function ExportPort(p: Signal): (pp: PPort)
    ensures pp.signal.name == p.name && pp.signal.width == p.width
    ensures ImportPortDir(pp.direction) == p.direction
  {
    PPort(ExportPortDir(p.direction), PSignal(p.name, p.width))
  }

  function ExportPorts(ps: seq<Signal>): (r: seq<PPort>)
    ensures |r| == |ps|
    ensures forall i :: 0 <= i < |ps| ==> r[i] == ExportPort(ps[i])
  {
    seq(|ps|, i requires 0 <= i < |ps| => ExportPort(ps[i]))
  }

  function ExportSignals(ss: seq<Signal>): (r: seq<PSignal>)
    ensures |r| == |ss|
    ensures forall i :: 0 <= i < |ss| ==> r[i].name == ss[i].name && r[i].width == ss[i].width
  {
    seq(|ss|, i requires 0 <= i < |ss| => PSignal(ss[i].name, ss[i].width))
  }

  /** A parameter value the wire format can carry (or omit). */
  predicate Encodable(v: ParamValue)
  {
    v.NoneVal? || v.IntVal? || v.FloatVal? || v.StrVal?
  }

  function WireValue(v: ParamValue): PParam
    requires Encodable(v) && !v.NoneVal?
  {
    match v
    case IntVal(i) => Integer(i)
    case FloatVal(f) => Double(f)
    case StrVal(s) => Str(s)
  }

  /** The parameter loop of `export_instance`. */
  function ExportParams(params: map<string, ParamValue>): (r: Result<map<string, PParam>>)
    ensures r.Ok? <==> forall k :: k in params ==> Encodable(params[k])
    ensures r.Err? ==> r.error == InvalidParamValue
    ensures r.Ok? ==> forall k :: k in r.value <==> k in params && !params[k].NoneVal?
    ensures r.Ok? ==> forall k :: k in r.value ==>
      match params[k]
      case IntVal(i) => r.value[k] == Integer(i)
      case FloatVal(f) => r.value[k] == Double(f)
      case StrVal(s) => r.value[k] == Str(s)
      case _ => false
  {
    if exists k :: k in params && !Encodable(params[k]) then Err(InvalidParamValue)
    else Ok(map k | k in params && !params[k].NoneVal? :: WireValue(params[k]))
  }

  /** A connection whose every part is a signal, a slice or a concatenation. */
  predicate Exportable(c: Connectable)
  {
    match c
    case Sig(_) => true
    case Slice(_, _, _) => true
    case Concat(parts) => forall i :: 0 <= i < |parts| ==> Exportable(parts[i])
    case OtherConn(_) => false
  }

  /** The connection translation of `export_instance`, and `export_concat`
      for the parts of a concatenation. */
  function ExportConnection(c: Connectable): (r: Result<PConnection>)
    ensures r.Ok? <==> Exportable(c)
    ensures r.Err? ==> r.error == InvalidConnection
    ensures c.Sig? && r.Ok? ==> r.value == PSig(PSignal(c.signal.name, c.signal.width))
    ensures c.Slice? && r.Ok? ==> r.value == PSlice(c.of.name, c.top, c.bot)
    ensures c.Concat? && r.Ok? ==>
      && r.value.PConcat?
      && |r.value.parts| == |c.parts|
      && forall i :: 0 <= i < |c.parts| ==> ExportConnection(c.parts[i]) == Ok(r.value.parts[i])
  {
    match c
    case Sig(s) => Ok(PSig(PSignal(s.name, s.width)))
    case Slice(s, top, bot) => Ok(PSlice(s.name, top, bot))
    case Concat(parts) =>
      var ps :- ExportParts(parts);
      Ok(PConcat(ps))
    case OtherConn(_) => Err(InvalidConnection)
  }

  function ExportParts(parts: seq<Connectable>): (r: Result<seq<PConnection>>)
    ensures r.Ok? <==> forall i :: 0 <= i < |parts| ==> Exportable(parts[i])
    ensures r.Err? ==> r.error == InvalidConnection
    ensures r.Ok? ==> |r.value| == |parts|
    ensures r.Ok? ==> forall i :: 0 <= i < |parts| ==> ExportConnection(parts[i]) == Ok(r.value[i])
  {
    if parts == [] then Ok([])
    else
      var p :- ExportConnection(parts[0]);
      var rest :- ExportParts(parts[1..]);
      assert forall i :: 1 <= i < |parts| ==> parts[i] == parts[1..][i - 1];
      Ok([p] + rest)
  }

  /** The connection loop of `export_instance`. */
  function ExportConnections(conns: map<string, Connectable>): (r: Result<map<string, PConnection>>)
    ensures r.Ok? <==> forall k :: k in conns ==> Exportable(conns[k])
    ensures r.Err? ==> r.error == InvalidConnection
    ensures r.Ok? ==> r.value.Keys == conns.Keys
    ensures r.Ok? ==> forall k :: k in conns ==> ExportConnection(conns[k]) == Ok(r.value[k])
  {
    if exists k :: k in conns && !Exportable(conns[k]) then Err(InvalidConnection)
    else Ok(map k | k in conns :: ExportConnection(conns[k]).value)
  }
}

=== FILE: exporter_props.dfy ===
/**
  Properties of the exporter over whole hierarchies: the package lists every
  module after the modules it instantiates, each module once; and the
  consequences of where the name check sits and of how parameter values are
  encoded.
 */
module ExporterProps {
  import opened Common
  import opened Circuit
  import opened Proto
  import opened Exporter
  import Primitives
  import Asap7

  function Max(a: nat, b: nat): nat
  {
    if a < b then b else a
  }

  /** The depth of the instance hierarchy below `m`, counting `m`. */
  function Height(m: Module): (h: nat)
    decreases m, 1
    ensures h == 1 + InstsHeight(m.instances)
  {
    1 + InstsHeight(m.instances)
  }

  /** The greatest height among the instances' module targets. */
  function InstsHeight(insts: seq<Instance>): (h: nat)
    decreases insts, 0
    ensures forall i :: 0 <= i < |insts| ==> TargetHeight(insts[i].target) <= h
  {
    if insts == [] then 0
    else
      assert forall i :: 1 <= i < |insts| ==> insts[1..][i - 1] == insts[i];
      Max(TargetHeight(insts[0].target), InstsHeight(insts[1..]))
  }

  function TargetHeight(t: Option<Instantiable>): nat
    decreases t, 0
  {
    match t
    case Some(IModule(c)) => Height(c)
    case _ => 0
  }

  predicate NoDup(s: seq<NodeId>)
  {
    forall i, j :: 0 <= i < j < |s| ==> s[i] != s[j]
  }

  /** `a` occurs in `s` before `b`. */
  predicate Before(s: seq<NodeId>, a: NodeId, b: NodeId)
  {
    exists i, j :: 0 <= i < j < |s| && s[i] == a && s[j] == b
  }

  /** Module `k` has been exported under its qualified name, after every
      module it instantiates. */
  predicate Exported(st: ExportState, k: Module)
  {
    && k.id in st.modules
    && st.modules[k.id].name == QualName(st.pkg.name, k)
    && forall c :: c in InstanceChildren(k) ==> Before(st.order, c.id, k.id)
  }

  /** `order` lists the exported ids once each, in step with the package's
      module list. */
  ghost predicate Aligned(st: ExportState)
  {
    && NoDup(st.order)
    && (forall id :: id in st.modules ==> id in st.order)
    && |st.pkg.modules| == |st.order|
    && (forall i :: 0 <= i < |st.order| ==> st.order[i] in st.modules && st.pkg.modules[i] == st.modules[st.order[i]])
  }

  /** The invariant of an export run over the modules `U`: every module of
      `U` whose id has been exported was itself exported, after its
      children. */
  ghost predicate Inv(st: ExportState, U: set<Module>)
  {
    && Aligned(st)
    && forall k :: k in U && k.id in st.modules ==> Exported(st, k)
  }

  /** Every module of `U` whose id `st'` adds to `st` has height at most `h`. */
  ghost predicate NewBelow(st: ExportState, st': ExportState, U: set<Module>, h: nat)
  {
    forall k :: k in U && k.id in st'.modules && k.id !in st.modules ==> Height(k) <= h
  }

  lemma BeforeExtends(s: seq<NodeId>, t: seq<NodeId>, a: NodeId, b: NodeId)
    requires Before(s, a, b) && IsPrefix(s, t)
    ensures Before(t, a, b)
  {
    var i, j :| 0 <= i < j < |s| && s[i] == a && s[j] == b;
    assert t[i] == s[i] && t[j] == s[j];
  }

  /** `st'` keeps every module entry of `st` and extends its order. */
  predicate ModulesGrow(st: ExportState, st': ExportState)
  {
    && MapGrows(st.modules, st'.modules)
    && IsPrefix(st.order, st'.order)
    && st'.pkg.name == st.pkg.name
  }

  /** What was exported stays exported as the run goes on. */
  lemma ExportedExtends(st: ExportState, st': ExportState, k: Module)
    requires Exported(st, k) && ModulesGrow(st, st')
    ensures Exported(st', k)
  {
    forall c | c in InstanceChildren(k)
      ensures Before(st'.order, c.id, k.id)
    {
      BeforeExtends(st.order, st'.order, c.id, k.id);
    }
  }

  /** A step that adds no module keeps the invariant. */
  lemma InvKeptWithoutModules(st: ExportState, st': ExportState, U: set<Module>)
    requires Inv(st, U) && Grows(st, st')
    requires st'.modules == st.modules && st'.order == st.order && st'.pkg.modules == st.pkg.modules
    ensures Inv(st', U)
  {
    forall k | k in U && k.id in st'.modules
      ensures Exported(st', k)
    {
      ExportedExtends(st, st', k);
    }
  }

  /** Appending an id not yet listed keeps a list free of duplicates. */
  lemma NoDupAppend(s: seq<NodeId>, id: NodeId)
    requires NoDup(s) && id !in s
    ensures NoDup(s + [id])
  {
    forall i, j | 0 <= i < j < |s + [id]|
      ensures (s + [id])[i] != (s + [id])[j]
    {
      if j == |s| {
        assert (s + [id])[i] == s[i];
      }
    }
  }

  /** Recording under a fresh id keeps `order` in step with the package. */
  lemma RecordAligned(st: ExportState, id: NodeId, pm: PModule)
    requires Aligned(st) && id !in st.modules
    ensures Aligned(Record(st, id, pm))
    ensures Record(st, id, pm).order == st.order + [id]
    ensures IsPrefix(st.order, Record(st, id, pm).order)
    ensures ModulesGrow(st, Record(st, id, pm))
  {
    var st' := Record(st, id, pm);
    assert id !in st.order;
    assert st'.order == st.order + [id] && st'.pkg.modules == st.pkg.modules + [pm];
    forall i | 0 <= i < |st'.order|
      ensures st'.order[i] in st'.modules && st'.pkg.modules[i] == st'.modules[st'.order[i]]
    {
      if i < |st.order| {
        assert st'.order[i] == st.order[i] != id;
      }
    }
    assert NoDup(st'.order) by {
      NoDupAppend(st.order, id);
    }
  }

  /** The module just recorded, after its children, is exported. */
  lemma RecordExportsModule(st: ExportState, m: Module, pm: PModule)
    requires Aligned(st) && m.id !in st.modules
    requires forall c :: c in InstanceChildren(m) ==> c.id in st.modules
    requires pm.name == QualName(st.pkg.name, m)
    ensures Exported(Record(st, m.id, pm), m)
  {
    var st' := Record(st, m.id, pm);
    RecordAligned(st, m.id, pm);
    forall c | c in InstanceChildren(m)
      ensures Before(st'.order, c.id, m.id)
    {
      var p :| 0 <= p < |st.order| && st.order[p] == c.id;
      assert st'.order[p] == c.id && st'.order[|st.order|] == m.id;
    }
  }

  /** Recording a module whose children are all exported, under an id not
      yet used, keeps the invariant. */
  lemma {:induction false} RecordKeepsInv(st: ExportState, m: Module, pm: PModule, U: set<Module>)
    requires Inv(st, U) && m in U && UniqueIds(U)
    requires m.id !in st.modules
    requires forall c :: c in InstanceChildren(m) ==> c.id in st.modules
    requires pm.name == QualName(st.pkg.name, m)
    ensures Inv(Record(st, m.id, pm), U)
  {
    var st' := Record(st, m.id, pm);
    RecordAligned(st, m.id, pm);
    RecordExportsModule(st, m, pm);
    forall k | k in U && k.id in st'.modules
      ensures Exported(st', k)
    {
      if k.id == m.id {
        assert k == m;
      } else {
        ExportedExtends(st, st', k);
      }
    }
  }

  lemma {:induction false} ModuleOrdered(m: Module, st: ExportState, U: set<Module>)
    requires m in U && Closed(U) && UniqueIds(U) && Inv(st, U)
    requires ExportModule(m, st).Ok?
    ensures Inv(ExportModule(m, st).value.1, U)
    ensures NewBelow(st, ExportModule(m, st).value.1, U, Height(m))
    decreases m, 2
  {
    if m.id !in st.modules {
      ChildTargetsIn(m, U);
      var qn := ExportModuleName(m, st).value;
      InstancesOrdered(m.instances, st, U);
      var (insts, st1) := ExportInstances(m.instances, st).value;
      assert m.id !in st1.modules;
      ChildrenExported(m, insts, st, st1);
      var pm := PModule(qn, ExportPorts(m.ports), ExportSignals(m.signals), insts);
      RecordKeepsInv(st1, m, pm, U);
    }
  }

  /** The modules `m` instantiates lie in `U` when `U` is closed. */
  lemma ChildTargetsIn(m: Module, U: set<Module>)
    requires m in U && Closed(U)
    ensures forall i, c :: 0 <= i < |m.instances| && c in TargetModules(m.instances[i].target) ==> c in U
  {
    forall i, c | 0 <= i < |m.instances| && c in TargetModules(m.instances[i].target)
      ensures c in U
    {
      assert m.instances[i] in m.instances;
      assert c in Children(m);
    }
  }

  /** After the instance loop of `m`, every module `m` instantiates has been
      exported. */
  lemma ChildrenExported(m: Module, insts: seq<PInstance>, st: ExportState, st1: ExportState)
    requires ExportInstances(m.instances, st) == Ok((insts, st1))
    ensures forall c :: c in InstanceChildren(m) ==> c.id in st1.modules
  {
    forall c | c in InstanceChildren(m)
      ensures c.id in st1.modules
    {
      var inst :| inst in m.instances && c in TargetModules(inst.target);
      var i :| 0 <= i < |m.instances| && m.instances[i] == inst;
    }
  }

  lemma {:induction false} InstancesOrdered(insts: seq<Instance>, st: ExportState, U: set<Module>)
    requires forall i, c :: 0 <= i < |insts| && c in TargetModules(insts[i].target) ==> c in U
    requires Closed(U) && UniqueIds(U) && Inv(st, U)
    requires ExportInstances(insts, st).Ok?
    ensures Inv(ExportInstances(insts, st).value.1, U)
    ensures NewBelow(st, ExportInstances(insts, st).value.1, U, InstsHeight(insts))
    decreases insts, 1
  {
    if insts != [] {
      InstancesStep(insts, st);
      assert TargetModules(insts[0].target) <= U;
      InstanceOrdered(insts[0], st, U);
      var st1 := ExportInstance(insts[0], st).value.1;
      InstancesOrdered(insts[1..], st1, U);
    }
  }

  /** The first step of the instance loop: the first instance exports, and
      the rest are exported from the state it leaves. */
  lemma InstancesStep(insts: seq<Instance>, st: ExportState)
    requires insts != [] && ExportInstances(insts, st).Ok?
    ensures ExportInstance(insts[0], st).Ok?
    ensures var st1 := ExportInstance(insts[0], st).value.1;
      && ExportInstances(insts[1..], st1).Ok?
      && ExportInstances(insts, st).value.1 == ExportInstances(insts[1..], st1).value.1
    ensures forall i :: 0 <= i < |insts[1..]| ==> insts[1..][i] == insts[i + 1]
    ensures InstsHeight(insts) == Max(TargetHeight(insts[0].target), InstsHeight(insts[1..]))
  {
  }

  lemma {:induction false} InstanceOrdered(inst: Instance, st: ExportState, U: set<Module>)
    requires TargetModules(inst.target) <= U && Closed(U) && UniqueIds(U) && Inv(st, U)
    requires ExportInstance(inst, st).Ok?
    ensures Inv(ExportInstance(inst, st).value.1, U)
    ensures NewBelow(st, ExportInstance(inst, st).value.1, U, TargetHeight(inst.target))
    decreases inst, 1
  {
    InstanceStep(inst, st);
    match inst.target
    case Some(IModule(c)) =>
      assert c in TargetModules(inst.target);
      ModuleOrdered(c, st, U);
    case Some(IExternal(call)) =>
      InvKeptWithoutModules(st, ExportExternalModule(call.emod, st).1, U);
    case _ =>
  }

  /** The state an exported instance leaves: that of its module target, that
      of exporting its external module, or the state it was given. */
  lemma InstanceStep(inst: Instance, st: ExportState)
    requires ExportInstance(inst, st).Ok?
    ensures inst.target.Some? && inst.target.value.IModule? ==>
      && ExportModule(inst.target.value.m, st).Ok?
      && ExportInstance(inst, st).value.1 == ExportModule(inst.target.value.m, st).value.1
    ensures inst.target.Some? && inst.target.value.IExternal? ==>
      ExportInstance(inst, st).value.1 == ExportExternalModule(inst.target.value.ext.emod, st).1
    ensures inst.target.Some? && inst.target.value.IPrimitive? ==> ExportInstance(inst, st).value.1 == st
  {
  }

  lemma {:induction false} TopsOrdered(tops: seq<Elabable>, st: ExportState, U: set<Module>)
    requires forall i :: 0 <= i < |tops| && tops[i].EModule? ==> tops[i].m in U
    requires Closed(U) && UniqueIds(U) && Inv(st, U)
    requires ExportTops(tops, st).Ok?
    ensures Inv(ExportTops(tops, st).value, U)
  {
    if tops != [] {
      TopsStep(tops, st);
      var m := tops[0].m;
      ModuleOrdered(m, st, U);
      var st1 := ExportModule(m, st).value.1;
      TopsOrdered(tops[1..], st1, U);
    }
  }

  /** The first step of the loop over the tops: the first top is a module,
      it exports, and the rest are exported from the state it leaves. */
  lemma TopsStep(tops: seq<Elabable>, st: ExportState)
    requires tops != [] && ExportTops(tops, st).Ok?
    ensures tops[0].EModule? && ExportModule(tops[0].m, st).Ok?
    ensures ExportTops(tops, st) == ExportTops(tops[1..], ExportModule(tops[0].m, st).value.1)
    ensures forall i :: 0 <= i < |tops[1..]| ==> tops[1..][i] == tops[i + 1]
  {
  }

  /** In the package, every module of `U` that has been exported comes after
      the definition of each module it instantiates. */
  ghost predicate DependencyOrdered(st: ExportState, U: set<Module>)
  {
    forall k, c :: k in U && k.id in st.modules && c in InstanceChildren(k) ==> DefinedBefore(st, c, k)
  }

  /** The package defines `c` before the module exported for `k`. */
  ghost predicate DefinedBefore(st: ExportState, c: Module, k: Module)
    requires k.id in st.modules
  {
    exists i, j :: (0 <= i < j < |st.pkg.modules|
      && st.pkg.modules[i].name == QualName(st.pkg.name, c)
      && st.pkg.modules[j] == st.modules[k.id])
  }

  function AsTops(ms: seq<Module>): (tops: seq<Elabable>)
    ensures |tops| == |ms| && forall i :: 0 <= i < |ms| ==> tops[i] == EModule(ms[i])
  {
    seq(|ms|, i requires 0 <= i < |ms| => EModule(ms[i]))
  }

  /** Dependency order. After exporting tops drawn from a set of modules with
      faithful ids, the package lists exactly the exported modules, each
      once and in export order, every top among them; every exported module
      keeps its qualified name and follows the modules it instantiates
      (`Inv`); and the definition of every module comes before the
      definition of any module that instantiates it. */
  lemma ExportDependencyOrder(ms: seq<Module>, domain: Option<string>, U: set<Module>)
    requires forall i :: 0 <= i < |ms| ==> ms[i] in U
    requires Closed(U) && UniqueIds(U)
    requires ExportTops(AsTops(ms), NewExportState(domain)).Ok?
    ensures var st := ExportTops(AsTops(ms), NewExportState(domain)).value;
      && Inv(st, U)
      && (forall i :: 0 <= i < |ms| ==> Exported(st, ms[i]))
      && DependencyOrdered(st, U)
  {
    var st0 := NewExportState(domain);
    var tops := AsTops(ms);
    TopsOrdered(tops, st0, U);
    var st := ExportTops(tops, st0).value;
    forall i | 0 <= i < |ms|
      ensures Exported(st, ms[i])
    {
      assert tops[i].m == ms[i];
    }
    forall k, c | k in U && k.id in st.modules && c in InstanceChildren(k)
      ensures DefinedBefore(st, c, k)
    {
      assert Exported(st, k);
      var i, j :| 0 <= i < j < |st.order| && st.order[i] == c.id && st.order[j] == k.id;
      assert c in Children(k);
      assert c in U && c.id in st.modules;
      assert Exported(st, c);
      assert st.pkg.modules[i] == st.modules[c.id];
      assert st.pkg.modules[j] == st.modules[k.id];
    }
  }

  /** Under the invariant, exporting a module has exported all it
      instantiates, so by induction everything below an exported module is
      exported too, and in dependency order. */
  lemma ChildExported(st: ExportState, U: set<Module>, k: Module, c: Module)
    requires Closed(U) && Inv(st, U)
    requires k in U && k.id in st.modules && c in InstanceChildren(k)
    ensures Exported(st, c) && DefinedBefore(st, c, k)
  {
    assert Exported(st, k);
    var i, j :| 0 <= i < j < |st.order| && st.order[i] == c.id && st.order[j] == k.id;
    assert c in Children(k);
    assert Exported(st, c);
    assert st.pkg.modules[i] == st.modules[c.id];
  }

  /** Every wire direction is the export of one port direction. */
  lemma PortDirSurjective(x: Direction)
    ensures ExportPortDir(ImportPortDir(x)) == x
  {
  }

  /** No two port directions share a wire value. */
  lemma PortDirInjective(a: PortDir, b: PortDir)
    ensures ExportPortDir(a) == ExportPortDir(b) <==> a == b
  {
    assert ImportPortDir(ExportPortDir(a)) == a;
    assert ImportPortDir(ExportPortDir(b)) == b;
  }

  /** Exporting a module a second time returns the first result and
      changes nothing. */
  lemma ExportModuleMemoized(m: Module, st: ExportState)
    requires ExportModule(m, st).Ok?
    ensures var (pm, st') := ExportModule(m, st).value;
      ExportModule(m, st') == Ok((pm, st'))
  {
  }

  /** The name check runs before the children are exported and the name is
      recorded after them, so a module instantiating a module with its own
      qualified name is not reported: the package gets two modules of the
      same name, the child's first. */
  lemma ParentChildNameClashUndetected(parent: Module, child: Module, inst: Instance, domain: Option<string>)
    requires parent.instances == [inst] && inst.target == Some(IModule(child)) && inst.conns == map[]
    requires child.instances == [] && parent.interfaces == [] && child.interfaces == []
    requires parent.id != child.id
    requires parent.pymodule == child.pymodule && parent.name == child.name
    ensures var r := Export(Many([EModule(parent)]), domain);
      && r.Ok? && |r.value.modules| == 2
      && r.value.modules[0].name == r.value.modules[1].name == QualName(PackageName(domain), parent)
  {
    var st0 := NewExportState(domain);
    var rc := ExportModule(child, st0);
    assert rc.Ok? by {
      assert ExportInstances(child.instances, st0) == Ok(([], st0));
    }
    var (pc, st1) := rc.value;
    assert st1.pkg.modules == [pc] && pc.name == QualName(st0.pkg.name, child);
    assert ExportInstances(parent.instances, st0).Ok? && ExportInstances(parent.instances, st0).value.1 == st1 by {
      assert ExportConnections(inst.conns) == Ok(map[]);
      assert ExportInstance(inst, st0).Ok? && ExportInstance(inst, st0).value.1 == st1;
    }
    var rp := ExportModule(parent, st0);
    assert rp.Ok?;
    var st2 := rp.value.1;
    assert st2.pkg.modules == [pc, rp.value.0];
    assert ExportTops([EModule(parent)], st0) == Ok(st2);
  }

  /** Two distinct sibling modules under one qualified name are reported when
      the second is reached. */
  lemma SiblingNameClashDetected(top: Module, a: Module, b: Module, ia: Instance, ib: Instance, domain: Option<string>)
    requires top.instances == [ia, ib] && ia.target == Some(IModule(a)) && ib.target == Some(IModule(b))
    requires ia.conns == map[] && a.instances == []
    requires top.interfaces == [] && a.interfaces == [] && b.interfaces == []
    requires a.id != b.id && top.id != a.id && top.id != b.id
    requires a.pymodule == b.pymodule && a.name == b.name
    ensures Export(Many([EModule(top)]), domain) == Err(NameCollision(PackageName(domain), a.pymodule + "." + a.name))
  {
    var err := NameCollision(PackageName(domain), a.pymodule + "." + a.name);
    var st0 := NewExportState(domain);
    assert ExportInstances(a.instances, st0) == Ok(([], st0));
    var ra := ExportModule(a, st0);
    assert ra.Ok?;
    var st1 := ra.value.1;
    assert QualName(st1.pkg.name, b) in st1.moduleNames && b.id !in st1.modules;
    assert ExportModule(b, st1) == Err(err);
    assert ExportConnections(ia.conns) == Ok(map[]);
    assert ExportInstance(ia, st0).Ok? && ExportInstance(ia, st0).value.1 == st1;
    assert ExportInstance(ib, st1) == Err(err);
    assert [ia, ib][1..] == [ib];
    assert ExportInstances([ib], st1) == Err(err);
    assert ExportInstances(top.instances, st0) == Err(err);
    assert ExportModule(top, st0) == Err(err);
  }

  /** Every instance of the Mos primitive fails to export: `asdict` keeps the
      device type and threshold as enum members, which the parameter loop
      rejects with a `TypeError`. */
  lemma MosInstanceNotExportable(inst: Instance, p: MosParams, st: ExportState)
    requires inst.target == Some(IPrimitive(PrimitiveCall(Primitives.Mos, MosParamsVal(p))))
    ensures ExportInstance(inst, st) == Err(InvalidParamValue)
    ensures ClassOf(InvalidParamValue) == TypeErrorClass
  {
    var d := AsDict(MosParamsVal(p));
    assert "tp" in d && !Encodable(d["tp"]);
  }

  /** The same holds after ASAP7 lowering: the translated parameters keep
      the device type as an enum member. */
  lemma LoweredMosNotExportable(p: MosParams)
    ensures ExportParams(Asap7.ModParams(p)) == Err(InvalidParamValue)
  {
    var d := Asap7.ModParams(p);
    assert "tp" in d && !Encodable(d["tp"]);
  }

  /** Unset parameters are left out; an integer becomes an integer and a
      float a double. */
  lemma ParamEncodingExamples()
    ensures ExportParams(AsDict(Primitives.DiodeParams(None, Some(3)))) == Ok(map["l" := Integer(3)])
    ensures ExportParams(AsDict(Primitives.ResistorParams(1.5))) == Ok(map["r" := Double(1.5)])
  {
    var d := AsDict(Primitives.DiodeParams(None, Some(3)));
    assert d.Keys == {"w", "l"} && d["w"] == NoneVal && d["l"] == IntVal(3);
    var r := ExportParams(d);
    assert r.value.Keys == {"l"} && r.value["l"] == Integer(3);
    assert r.value == map["l" := Integer(3)];
    var e := AsDict(Primitives.ResistorParams(1.5));
    assert e.Keys == {"r"} && e["r"] == FloatVal(1.5);
    var q := ExportParams(e);
    assert q.value.Keys == {"r"} && q.value["r"] == Double(1.5);
    assert q.value == map["r" := Double(1.5)];
  }

  /** A concatenation of a bus and a slice exports part by part, in order. */
  lemma ConcatExample()
    ensures var a := Signal("a", 4, INTERNAL, PortDir.NONE);
      var b := Signal("b", 8, INTERNAL, PortDir.NONE);
      ExportConnection(Concat([Sig(a), Slice(b, 3, 0)])) == Ok(PConcat([PSig(PSignal("a", 4)), PSlice("b", 3, 0)]))
  {
    var a := Signal("a", 4, INTERNAL, PortDir.NONE);
    var b := Signal("b", 8, INTERNAL, PortDir.NONE);
    var r := ExportConnection(Concat([Sig(a), Slice(b, 3, 0)]));
    assert ExportConnection(Sig(a)) == Ok(PSig(PSignal("a", 4)));
    assert ExportConnection(Slice(b, 3, 0)) == Ok(PSlice("b", 3, 0));
    assert r.value.parts == [PSig(PSignal("a", 4)), PSlice("b", 3, 0)];
  }
}

=== FILE: flatname.dfy ===
/**
  `Elaborator.flatname`: merge name segments with underscores into an
  attribute name that avoids the keys of a dictionary, appending further
  underscores on collision, within a length ceiling.
 */
module FlatName {
  import opened Common

  /** `"_".join(segments)`. */
  function Join(segments: seq<string>): string
  {
    if |segments| == 0 then ""
    else if |segments| == 1 then segments[0]
    else segments[0] + "_" + Join(segments[1..])
  }

  function Underscores(k: nat): (u: string)
    ensures |u| == k
    ensures forall i :: 0 <= i < k ==> u[i] == '_'
  {
    if k == 0 then "" else Underscores(k - 1) + "_"
  }

  /** The name tried after `k` collisions. */
  function Candidate(segments: seq<string>, k: nat): (c: string)
    ensures |c| == |Join(segments)| + k
  {
    Join(segments) + Underscores(k)
  }

  /** The keys to avoid; `None` stands for no dictionary at all. */
  function AvoidKeys(avoid: Option<set<string>>): set<string>
  {
    if avoid.Some? then avoid.value else {}
  }

  /** `name` is the join followed by the fewest underscores that leave the
      avoid-set, and is within the ceiling. */
  predicate FewestEscape(segments: seq<string>, keys: set<string>, maxlen: int, name: string)
  {
    && |Join(segments)| <= |name| <= maxlen
    && name == Candidate(segments, |name| - |Join(segments)|)
    && name !in keys
    && forall j :: 0 <= j < |name| - |Join(segments)| ==> Candidate(segments, j) in keys
  }

  method Flatname(segments: seq<string>, avoid: Option<set<string>>, maxlen: int) returns (r: Result<string>)
    ensures r.Ok? ==> FewestEscape(segments, AvoidKeys(avoid), maxlen, r.value)
    ensures r.Err? <==>
      forall k: nat :: |Join(segments)| + k <= maxlen ==> Candidate(segments, k) in AvoidKeys(avoid)
    ensures r.Err? ==> r.error == NoFlatName
    ensures AvoidKeys(avoid) == {} && |Join(segments)| <= maxlen ==> r == Ok(Join(segments))
  {
    var keys := AvoidKeys(avoid);
    var name := Join(segments);
    ghost var k: nat := 0;
    while true
      invariant name == Candidate(segments, k)
      invariant forall j :: 0 <= j < k ==> Candidate(segments, j) in keys
      decreases maxlen - |name|
    {
      if |name| > maxlen {
        return Err(NoFlatName);
      }
      if name !in keys {
        return Ok(name);
      }
      name := name + "_";
      k := k + 1;
    }
  }
}

=== FILE: primitives.dfy ===
/**
  The primitive library: construction checks on `Primitive` and
  `PrimitiveCall`, the value checks of `MosParams`, the `Nmos` / `Pmos`
  wrappers and the library's primitive definitions.
 */
module Primitives {
  import opened Common
  import opened Circuit

  /** What `Primitive.__post_init_post_parse__` accepts. */
  predicate ValidPrimitive(p: Primitive)
  {
    && p.paramtype.isParamClass
    && forall i :: 0 <= i < |p.portList| ==> p.portList[i].name != "" && p.portList[i].vis == PORT
  }

  /** The error the port loop raises at port `p`, if any. */
  function PortError(p: Signal): Option<Error>
  {
    if p.name == "" then Some(UnnamedPort)
    else if p.vis != PORT then Some(PortNotVisible)
    else None
  }

  /** The port loop: the error of the first offending port. */
  function CheckPorts(ports: seq<Signal>): (r: Option<Error>)
    ensures r.None? <==> forall i :: 0 <= i < |ports| ==> PortError(ports[i]).None?
    ensures r.Some? ==> exists i :: 0 <= i < |ports| && r == PortError(ports[i])
                                  && (forall j :: 0 <= j < i ==> PortError(ports[j]).None?)
  {
    if ports == [] then None
    else if PortError(ports[0]).Some? then PortError(ports[0])
    else
      var r := CheckPorts(ports[1..]);
      assert forall i :: 1 <= i < |ports| ==> ports[i] == ports[1..][i - 1];
      assert r.Some? ==> exists i :: 1 <= i < |ports| && r == PortError(ports[i])
                                     && (forall j :: 0 <= j < i ==> PortError(ports[j]).None?) by {
        if r.Some? {
          var i :| 0 <= i < |ports[1..]| && r == PortError(ports[1..][i])
            && forall j :: 0 <= j < i ==> PortError(ports[1..][j]).None?;
          assert r == PortError(ports[i + 1]);
          assert forall j :: 0 <= j < i + 1 ==> PortError(ports[j]).None? by {
            forall j | 0 <= j < i + 1
              ensures PortError(ports[j]).None?
            {
              if j > 0 {
                assert ports[j] == ports[1..][j - 1];
              }
            }
          }
        }
      }
      r
  }

  /** Constructing a `Primitive`. */
  function NewPrimitive(name: string, desc: string, portList: seq<Signal>, paramtype: ParamType): (r: Result<Primitive>)
    ensures r.Ok? <==> ValidPrimitive(Primitive(name, desc, portList, paramtype))
    ensures r.Ok? ==> r.value == Primitive(name, desc, portList, paramtype)
    ensures !paramtype.isParamClass ==> r == Err(NotAParamClass)
    ensures r.Err? && paramtype.isParamClass ==>
      exists i :: 0 <= i < |portList| && Some(r.error) == PortError(portList[i])
  {
    if !paramtype.isParamClass then Err(NotAParamClass)
    else
      match CheckPorts(portList)
      case Some(e) => Err(e)
      case None => Ok(Primitive(name, desc, portList, paramtype))
  }

  /** No later port in `ps` shares the name of port `i`. */
  predicate LastOfName(ps: seq<Signal>, i: int)
    requires 0 <= i < |ps|
  {
    forall j :: i < j < |ps| ==> ps[j].name != ps[i].name
  }

  /** `Primitive.ports`: `{p.name: p for p in port_list}`. */
  function PortMap(ps: seq<Signal>): (m: map<string, Signal>)
    ensures forall k :: k in m <==> exists i :: 0 <= i < |ps| && ps[i].name == k
    ensures forall k :: k in m ==> m[k].name == k && m[k] in ps
  {
    if ps == [] then map[]
    else
      var init, last := ps[..|ps| - 1], ps[|ps| - 1];
      assert ps == init + [last];
      PortMap(init)[last.name := last]
  }

  /** A later port of the same name replaces an earlier one: each name maps
      to the last port carrying it. */
  lemma {:induction false} PortMapLastWins(ps: seq<Signal>, i: int)
    requires 0 <= i < |ps| && LastOfName(ps, i)
    ensures ps[i].name in PortMap(ps) && PortMap(ps)[ps[i].name] == ps[i]
  {
    if i < |ps| - 1 {
      var init := ps[..|ps| - 1];
      assert init[i] == ps[i];
      assert LastOfName(init, i) by {
        forall j | i < j < |init|
          ensures init[j].name != init[i].name
        {
          assert init[j] == ps[j];
        }
      }
      PortMapLastWins(init, i);
    }
  }

  function Ports(p: Primitive): map<string, Signal>
  {
    PortMap(p.portList)
  }

  /** Calling a primitive: `PrimitiveCall(prim, params)`, whose construction
      requires `params` to be an instance of the primitive's parameter type. */
  function Call(prim: Primitive, params: Params): (r: Result<PrimitiveCall>)
    ensures r.Ok? <==> TypeOf(params) == prim.paramtype
    ensures r.Ok? ==> r.value.prim == prim && r.value.params == params
    ensures r.Err? ==> r.error == InvalidParams
  {
    if TypeOf(params) != prim.paramtype then Err(InvalidParams)
    else Ok(PrimitiveCall(prim, params))
  }

  /** `PrimitiveCall.ports`. */
  function CallPorts(c: PrimitiveCall): (m: map<string, Signal>)
    ensures forall k :: k in m <==> exists i :: 0 <= i < |c.prim.portList| && c.prim.portList[i].name == k
    ensures forall k :: k in m ==> m[k].name == k && m[k] in c.prim.portList
  {
    Ports(c.prim)
  }

  /** The value checks of `MosParams`, once every field is set. */
  predicate ValidMos(p: MosParams)
  {
    && p.w.Some? && p.w.value > 0
    && p.l.Some? && p.l.value > 0
    && p.npar > 0
    && p.nser > 0
  }

  /** `MosParams.__post_init_post_parse__`. An unset width or length makes
      the comparison with 0 itself fail, with a `TypeError`. */
  function CheckMosParams(p: MosParams): (r: Result<MosParams>)
    ensures r.Ok? <==> ValidMos(p)
    ensures r.Ok? ==> r.value == p
    ensures p.w.None? ==> r == Err(NoneComparison)
    ensures p.w.Some? && p.w.value <= 0 ==> r == Err(InvalidMosValue)
    ensures r.Err? ==> r.error in {NoneComparison, InvalidMosValue}
  {
    if p.w.None? then Err(NoneComparison)
    else if p.w.value <= 0 then Err(InvalidMosValue)
    else if p.l.None? then Err(NoneComparison)
    else if p.l.value <= 0 then Err(InvalidMosValue)
    else if p.npar <= 0 then Err(InvalidMosValue)
    else if p.nser <= 0 then Err(InvalidMosValue)
    else Ok(p)
  }

  const DefaultMosParams := MosParams(None, None, 1, 1, NMOS, STD)

  const Mos := Primitive("Mos", "Mos Transistor", [Port("d"), Port("g"), Port("s"), Port("b")], MosParamsType)

  /** `Mos(replace(params, tp=tp))`: `replace` builds a new `MosParams`,
      re-running its checks. */
  function MosWithType(params: MosParams, tp: MosType): (r: Result<PrimitiveCall>)
    ensures r.Ok? <==> ValidMos(params)
    ensures r.Ok? ==>
      && r.value.prim == Mos
      && r.value.params.MosParamsVal?
      && r.value.params.mos.tp == tp
      && r.value.params.mos.(tp := params.tp) == params
  {
    var p :- CheckMosParams(params.(tp := tp));
    Call(Mos, MosParamsVal(p))
  }

  function Nmos(params: MosParams): (r: Result<PrimitiveCall>)
    ensures r.Ok? <==> ValidMos(params)
    ensures r.Ok? ==> r.value.prim == Mos && r.value.params == MosParamsVal(params.(tp := NMOS))
  {
    MosWithType(params, NMOS)
  }

  function Pmos(params: MosParams): (r: Result<PrimitiveCall>)
    ensures r.Ok? <==> ValidMos(params)
    ensures r.Ok? ==> r.value.prim == Mos && r.value.params == MosParamsVal(params.(tp := PMOS))
  {
    MosWithType(params, PMOS)
  }

  const DiodeParamsType := ParamType("DiodeParams", true)
  const ResistorParamsType := ParamType("ResistorParams", true)
  const CapacitorParamsType := ParamType("CapacitorParams", true)
  const InductorParamsType := ParamType("InductorParams", true)
  const ShortParamsType := ParamType("ShortParams", true)

  const TwoTerminal := [Port("p"), Port("n")]

  const Diode := Primitive("Diode", "Diode", TwoTerminal, DiodeParamsType)
  const Resistor := Primitive("Resistor", "Resistor", TwoTerminal, ResistorParamsType)
  const Capacitor := Primitive("Capacitor", "Capacitor", TwoTerminal, CapacitorParamsType)
  const Inductor := Primitive("Inductor", "Inductor", TwoTerminal, InductorParamsType)
  const Short := Primitive("Short", "Short-Circuit/ Net-Tie", TwoTerminal, ShortParamsType)

  function DiodeParams(w: Option<int>, l: Option<int>): Params
  {
    OtherParams(DiodeParamsType, map["w" := OptionalInt(w), "l" := OptionalInt(l)])
  }

  function ResistorParams(r: real): Params
  {
    OtherParams(ResistorParamsType, map["r" := FloatVal(r)])
  }

  function CapacitorParams(c: real): Params
  {
    OtherParams(CapacitorParamsType, map["c" := FloatVal(c)])
  }

  function InductorParams(l: real): Params
  {
    OtherParams(InductorParamsType, map["l" := FloatVal(l)])
  }

  function ShortParams(layer: Option<int>, w: Option<int>, l: Option<int>): Params
  {
    OtherParams(ShortParamsType, map["layer" := OptionalInt(layer), "w" := OptionalInt(w), "l" := OptionalInt(l)])
  }

  /** The library's own primitives pass the construction checks. */
  lemma LibraryPrimitivesValid()
    ensures NewPrimitive(Mos.name, Mos.desc, Mos.portList, Mos.paramtype) == Ok(Mos)
    ensures forall p :: p in [Diode, Resistor, Capacitor, Inductor, Short] ==>
      NewPrimitive(p.name, p.desc, p.portList, p.paramtype) == Ok(p)
  {
    assert ValidPrimitive(Mos);
    forall p | p in [Diode, Resistor, Capacitor, Inductor, Short]
      ensures NewPrimitive(p.name, p.desc, p.portList, p.paramtype) == Ok(p)
    {
      assert p.portList == TwoTerminal;
      assert ValidPrimitive(p);
    }
  }

  /** `MosParams()` with every default is rejected: width and length are
      unset, and the first check compares the unset width with 0. */
  lemma DefaultMosParamsRejected()
    ensures CheckMosParams(DefaultMosParams) == Err(NoneComparison)
    ensures ClassOf(NoneComparison) == TypeErrorClass
  {
  }

  /** A list of plain ports made from `names` maps each name to its port. */
  lemma PortsOfPortSeq(ps: seq<Signal>, names: seq<string>)
    requires |ps| == |names| && forall i :: 0 <= i < |ps| ==> ps[i] == Port(names[i])
    ensures forall k :: k in PortMap(ps) <==> k in names
    ensures forall k :: k in PortMap(ps) ==> PortMap(ps)[k] == Port(k)
  {
    var m := PortMap(ps);
    forall k | k in m
      ensures k in names && m[k] == Port(k)
    {
      var i :| 0 <= i < |ps| && ps[i].name == k;
      assert names[i] == k;
      var j :| 0 <= j < |ps| && ps[j] == m[k];
    }
    forall k | k in names
      ensures k in m
    {
      var i :| 0 <= i < |names| && names[i] == k;
      assert ps[i].name == k;
    }
  }
}

=== FILE: proto.dfy ===
/**
  The subset of the wire-format (protobuf) schema the exporter fills in:
  packages, qualified names, modules, external modules, ports, signals,
  instances, parameter values and connections.
 */
module Proto {

  datatype QualifiedName = QualifiedName(domain: string, name: string)

  datatype Direction = INPUT | OUTPUT | INOUT | NONE

  datatype PSignal = PSignal(name: string, width: nat)

  datatype PPort = PPort(direction: Direction, signal: PSignal)

  /** The `oneof` of a wire parameter value. */
  datatype PParam = Integer(i: int) | Double(d: real) | Str(s: string)

  datatype PConnection =
    | PSig(sig: PSignal)
    | PSlice(signal: string, top: int, bot: int)
    | PConcat(parts: seq<PConnection>)

  /** `ref` is `module.qn`: the reference an instance holds to its definition. */
  datatype PInstance = PInstance(
    name: string,
    ref: QualifiedName,
    parameters: map<string, PParam>,
    connections: map<string, PConnection>)

  datatype PModule = PModule(
    name: QualifiedName,
    ports: seq<PPort>,
    signals: seq<PSignal>,
    instances: seq<PInstance>)

  datatype PExternalModule = PExternalModule(name: string, ports: seq<PPort>)

  datatype Package = Package(name: string, modules: seq<PModule>, extModules: seq<PExternalModule>)
}
